=== FILE: README.md ===
# Photos model

A Dafny model of the data model of the Photos desktop application
(`src/photos/model`). The model has five levels:

- `UserManager` holds the users.
- Each `User` holds named albums.
- Each `Album` holds an ordered list of photos.
- Each `Photo` carries a caption, an optional date and a duplicate-free list of `Tag`s.

Every Java mutator either refuses and changes nothing, or makes one precise
edit. Here each mutator is a pure function. It returns the Java result together
with the new state.

Mapping of the Java design onto the model:

- **Names and nulls.** Java `null` arguments are `Option.None`. Thrown
  exceptions are `Result.Err` values that carry the Java message.
- **String library.** `String.trim`, `String.isBlank`, `toLowerCase` and
  `equalsIgnoreCase` are defined in module `Text`.
  - `Trim` strips characters at or below U+0020, as `String.trim` does.
  - `IsBlank` asks `Character.isWhitespace` of every character, as
    `String.isBlank` does.
  - Case folding covers ASCII letters, plus the one non-ASCII letter the
    findings below need: `Character.toUpperCase` maps U+017F (long s) to 'S'.
  - `toLowerCase()` is taken in a locale without special casing rules; the
    default-locale dependence is listed under "Left out".
- **Equality.** Tag, album and user `equals` call `equalsIgnoreCase`, which
  compares characters after upper-casing and then lower-casing them
  (`Text.RegionMatchesIgnoreCase`). That is equality of an ignore-case key
  (`Text.EqualsIgnoreCaseIsKeyEquality`), so each `equals` compares a key:
  - the ignore-case name for albums and users (`Albums.EqualityKey`,
    `Users.EqualityKey`);
  - the pair of ignore-case fields for tags (`Tags.EqualityKey`);
  - the path for photos.

  So `List.contains` and `List.remove(Object)` become key lookups over
  sequences (module `Lists`). `List.remove` drops the first element with the
  key.

  The lookups `getAlbum` and `getUser`, and every `hashCode`, compare
  `toLowerCase` texts instead (`Albums.Key`, `Users.Key`, `Tags.Key`). Equal
  `toLowerCase` texts are always equal ignoring case
  (`Text.FoldEqualityGivesEqualsIgnoreCase`). The converse holds on names
  without U+017F (`Text.EqualsIgnoreCaseWithoutLongS`) and fails on it: "ſ"
  lower-cases to itself but `equalsIgnoreCase` matches it with "s"
  (`Text.LongSEqualsPlainSpelling`). Three things follow:
  - `addTag` refuses a tag "ſ" beside a tag "s" (`Photos.LongSTagRefused`).
  - Equal tags, albums or users can hash differently
    (`Tags.EqualTagsCanHashApart`). Nothing in the application puts them in a
    hash table, so this has no visible effect.
  - `List.remove` in `deleteAlbum` and `deleteUser` can drop an element other
    than the one the lookup found (see Findings).
- **Photos belong to albums.** Each album holds its own `Photo` values. The
  Java class allows one `Photo` object in several albums, with edits made
  through one album visible in all. The model follows the caller instead:
  `AlbumController` builds a new `Photo` for every file it adds, so no object is
  shared. The same file added to two albums therefore gives two independent
  photos, each with its own caption, tags and date.
- **Edits in place.** Java edits a photo, album or user through the reference
  its container holds. Here `Albums.UpdatePhoto`, `Users.UpdateAlbum` and
  `UserManager.UpdateUser` put the edited child back at its position. Each
  keeps its container valid when the edit keeps the child valid and keeps the
  key its container keeps distinct: the path of a photo, the lower-cased name
  of an album or user.
  - Every photo edit, and every album edit but one, keeps the key.
  - `Album.setName` changes the key, an album's name. Apart from the
    constructor, `User.renameAlbum` is its only caller, and it refuses a name
    another album already has. So the user stays valid
    (`Users.RenameKeepsValid`).

  So every edit reached from the manager keeps the manager valid.
- **Dates.** A date is the local date-time a photo stores
  (`LocalDateTime.ofInstant` in the system time zone). It is written as one
  integer that orders local date-times as `isBefore` and `isAfter` do. The
  conversion from the file's instant is part of the `AttributeRead` input.
- **Filesystem.** What the filesystem reports is an input:
  - `FileProbe` gives the normalized absolute path, whether the file exists,
    and what reading its attributes gives;
  - `AttributeRead` says whether the attributes could be read.
- **Loading.** The outcome of reading the save file is an input (`Snapshot`).
  It includes a runtime exception thrown while decoding, which
  `loadFromFile` does not catch.

The invariants the classes promise are stated as `Valid` predicates:

- fields stored trimmed;
- tags distinct under `Tag.equals`;
- photos distinct by path within an album;
- album names distinct once lower-cased;
- usernames distinct once lower-cased.

Every mutator's contract says it preserves them, the as-written deletes
included.

`String.isBlank` and `String.trim` use different character classes, so
"not blank" does not imply "non-empty after trimming". The constructors check
blankness before trimming. A name made of one control character such as
U+0001 therefore passes the check and is stored as the empty string, and a
name such as U+0001 U+3000 is stored as the blank U+3000. The model follows
the code here. The invariants say "trimmed", not "non-blank", and two lemmas
exhibit the case.

## Model

| member | source | states |
|---|---|---|
| Text.TrimIsInnerPart | src/photos/model/Photo.java:89-91 | trimming removes only a prefix and a suffix of characters at or below U+0020, and leaves neither end on such a character |
| Text.BlankAndTrimDisagree | src/photos/model/Tag.java:21-28 | the blank check and trim disagree both ways: U+0001 is not blank yet trims to the empty string, U+3000 is blank yet survives trimming |
| Lists.IndexOf | src/photos/model/User.java:63-72 | the lookup loop: none exactly when no element has the key, otherwise the first position holding the key |
| Lists.RemoveFirst | src/photos/model/Album.java:99-104 | List.remove(Object): true exactly when some element has the key; then the first such element is removed and the others keep their order; otherwise the list is unchanged |
| Tags.NewTag | src/photos/model/Tag.java:20-29 | a null or blank name fails with the name message before the value is looked at; then a null or blank value fails with the value message; otherwise both fields are stored trimmed |
| Tags.ControlCharacterNameStoredEmpty | src/photos/model/Tag.java:21-28 | a name of one control character passes the checks and the tag is stored with an empty name |
| Text.EqualsIgnoreCaseIsKeyEquality | src/photos/model/Tag.java:39-44 | equalsIgnoreCase holds exactly when the two strings agree once every character is upper-cased and then lower-cased, with U+017F upper-casing to 'S' |
| Text.FoldEqualityGivesEqualsIgnoreCase | src/photos/model/Tag.java:39-50 | strings with the same toLowerCase text, which hashCode and the lookups compare, are equal under equalsIgnoreCase |
| Text.EqualsIgnoreCaseWithoutLongS | src/photos/model/Tag.java:39-50 | on strings without U+017F, equalsIgnoreCase holds exactly when the toLowerCase texts are equal, both directions |
| Text.LongSEqualsPlainSpelling | src/photos/model/Tag.java:39-50 | "ſ" followed by lower-case letters equals its spelling with 's' under equalsIgnoreCase, while the toLowerCase texts differ |
| Text.LongSIsKeyName | src/photos/model/User.java:63-72 | "ſ" followed by lower-case letters is not blank, trims to itself and lower-cases to itself, so a lookup by that name compares it as written |
| Text.LongSFoldsToPlainSpelling | src/photos/model/User.java:141-146 | equalsIgnoreCase reads "ſ" followed by lower-case letters as the same word spelled with 's' |
| Tags.Equal | src/photos/model/Tag.java:39-50 | Tag.equals, both fields compared with equalsIgnoreCase, holds exactly when the ignore-case keys of both fields agree; tags whose lower-cased fields (what hashCode hashes) agree are equal |
| Tags.EqualTagsCanHashApart | src/photos/model/Tag.java:39-50 | a tag named "ſ" followed by lower-case letters equals the tag named with 's', yet the pairs hashCode hashes differ |
| Tags.EqualIsEquivalence | src/photos/model/Tag.java:40-45 | Tag.equals is reflexive, symmetric and transitive |
| Tags.CaseVariantsCollide | src/photos/model/Tag.java:20-44 | tags built from inputs that differ in case and surrounding spaces, such as ("Color", "Red") and (" color ", "red"), are equal |
| Photos.NewPhoto | src/photos/model/Photo.java:51-67 | a null or blank path fails with the argument message; a missing file fails with an I/O error naming the normalized path; unreadable attributes fail with an I/O error; otherwise the photo has that path, an empty caption, no tags and the file's modification time, as a local date-time, as its date |
| Photos.RefreshDateTaken | src/photos/model/Photo.java:74-79 | fails exactly when the attributes cannot be read; otherwise only the date changes |
| Photos.SetCaption | src/photos/model/Photo.java:89-91 | null stores the empty caption, anything else is stored trimmed; path, date and tags are unchanged |
| Photos.HasTag | src/photos/model/Photo.java:123 | tags.contains holds exactly when some tag of the photo is equal to the given one under Tag.equals |
| Photos.AddTag | src/photos/model/Photo.java:121-127 | true exactly when the tag is non-null and no equal tag is present; then it is appended at the end; otherwise nothing changes; afterwards an equal tag is present and the tags stay distinct |
| Photos.LongSTagRefused | src/photos/model/Photo.java:121-127 | addTag refuses a tag named "ſ" followed by lower-case letters when the photo has the same tag spelled with 's', and the photo is unchanged |
| Photos.RemoveTag | src/photos/model/Photo.java:135-138 | true exactly when the tag is non-null and an equal tag is present; then exactly the first equal tag is removed and the rest keep their order; otherwise nothing changes; with distinct tags no equal tag remains |
| Photos.AddThenRemoveTag | src/photos/model/Photo.java:121-138 | removeTag of a tag that addTag just appended succeeds and gives back the photo as it was |
| Photos.Equal | src/photos/model/Photo.java:143-153 | two photos are equal exactly when they differ at most in caption, date and tags |
| Photos.EditsKeepIdentity | src/photos/model/Photo.java:143-148 | setCaption, addTag, removeTag and a date refresh all leave a photo equal to itself, since the path never changes |
| Photos.SamePathSamePhoto | src/photos/model/Photo.java:56-62 | two photos constructed for the same normalized path are equal whatever else differs |
| Photos.FormattedDateTaken | src/photos/model/Photo.java:100-106 | the formatted date is empty exactly when there is no date |
| Albums.SetName | src/photos/model/Album.java:56-61 | a null or blank name fails with the Java message; otherwise the name is stored trimmed and the photos are kept |
| Albums.NewAlbum | src/photos/model/Album.java:38-40 | the constructor fails as setName does; otherwise the album has the trimmed name and no photos |
| Albums.NumPhotos | src/photos/model/Album.java:73-75 | the count is zero exactly when the album contains no photo at all |
| Albums.ContainsPhoto | src/photos/model/Album.java:110-115 | false for null; otherwise true exactly when some photo of the album is equal to the given one under Photo.equals |
| Albums.AddPhoto | src/photos/model/Album.java:83-91 | true exactly when the photo is non-null and no equal photo is present; then it is appended and the count grows by one; otherwise nothing changes; photos stay valid and pairwise unequal |
| Albums.RemovePhoto | src/photos/model/Album.java:99-104 | true exactly when the album contains the photo; then exactly the first photo equal to it is removed, the rest keep their order and the count drops by one; otherwise nothing changes; in a valid album the photo is then absent |
| Albums.AddThenRemovePhoto | src/photos/model/Album.java:83-104 | removePhoto of a photo that addPhoto just appended succeeds and gives back the album as it was |
| Albums.UpdatePhoto | src/photos/controller/AlbumController.java:197-249 | a photo of the album edited in place: only that position changes, and an edit that keeps the photo valid and equal to itself keeps the album valid |
| Albums.PhotoEditsKeepValid | src/photos/controller/AlbumController.java:197-249 | setCaption, addTag of a valid tag, removeTag and a date refresh made in place on a photo of a valid album leave the album valid |
| Albums.ScanEarliest | src/photos/model/Album.java:122-130 | the loop result is absent exactly when it started absent and no photo has a date; otherwise it is the start value or some photo's date, and no date seen is earlier |
| Albums.ScanLatest | src/photos/model/Album.java:138-146 | the mirror image for the latest date |
| Albums.EarliestDate | src/photos/model/Album.java:121-131 | absent exactly when no photo has a date (the empty album included); otherwise some photo's date that no other date precedes |
| Albums.LatestDate | src/photos/model/Album.java:137-147 | absent exactly when no photo has a date; otherwise some photo's date that no other date follows |
| Albums.EarliestNotAfterLatest | src/photos/model/Album.java:121-147 | the earliest and latest dates exist together, and the earliest is not after the latest |
| Albums.FormattedDateRange | src/photos/model/Album.java:154-162 | the range text is empty exactly when no photo has a date |
| Albums.Equal | src/photos/model/Album.java:168-178 | Album.equals, the names compared with equalsIgnoreCase, holds exactly when the ignore-case names agree; albums whose lower-cased names (what hashCode hashes) agree are equal |
| Albums.EqualIsEquivalence | src/photos/model/Album.java:168-173 | Album.equals is an equivalence that ignores the photos |
| Users.NewUser | src/photos/model/User.java:36-41 | a null or blank username fails with the Java message; otherwise it is stored trimmed with no albums |
| Users.FindAlbum | src/photos/model/User.java:63-72 | none for a null name; otherwise the first album whose lower-cased name is the trimmed, lower-cased query, and none exactly when there is no such album |
| Users.GetAlbum | src/photos/model/User.java:63-72 | null exactly when the name is null or no album matches it ignoring case; otherwise an album of the user that matches |
| Users.CreateAlbum | src/photos/model/User.java:81-92 | null with no change exactly when the name is null, blank or already taken ignoring case; otherwise one new empty album with the trimmed name is appended and the same name then finds it; names stay distinct |
| Users.DeleteAlbum | src/photos/model/User.java:100-106 | false with no change exactly when no album matches; otherwise exactly the matched album is removed and the others keep their order; with distinct names nothing matches afterwards |
| Users.RenameAlbum | src/photos/model/User.java:118-136 | false with no change exactly when the new name is null or blank, the old name matches nothing, or the new name matches a different album; otherwise only the matched album changes, getting the trimmed new name and keeping its photos; names stay distinct |
| Users.DeleteAlbumAsWritten | src/photos/model/User.java:100-106 | deleteAlbum as written: false with no change exactly when the lookup finds nothing; otherwise the first album that equals, under the full equalsIgnoreCase, the album found is removed; the username is kept and a valid user stays valid |
| Users.DeleteAsWrittenAfterCreate | src/photos/model/User.java:81-106 | when createAlbum accepts a name that equalsIgnoreCase matches with an earlier album, deleteAlbum of that name as written removes the earlier album and keeps the new one, while DeleteAlbum removes the new one |
| Users.LongSAlbumIsCreated | src/photos/model/User.java:81-92 | beside an album "s" followed by lower-case letters, createAlbum accepts the same word spelled with "ſ" |
| Users.LongSDeleteRemovesPlainAlbum | src/photos/model/User.java:100-106 | for a user whose one album is "s" (or "s" followed by lower-case letters), createAlbum("ſ") and then deleteAlbum("ſ") as written removes "s" and keeps "ſ"; DeleteAlbum removes "ſ" and gives back the user as it was |
| Users.CreateThenDeleteAlbum | src/photos/model/User.java:81-106 | deleteAlbum under the name createAlbum just used succeeds and gives back the user as it was |
| Users.RenamedAlbumIsFound | src/photos/model/User.java:118-136 | after a successful rename, getAlbum with the new name finds the renamed album, at the position the old name found, for any user |
| Users.UpdateAlbum | src/photos/controller/AlbumController.java:159-195 | an album of the user edited in place: only that position changes, and an edit that keeps the album valid and its lower-cased name unchanged keeps the user valid |
| Users.AlbumPhotoEditsKeepValid | src/photos/controller/AlbumController.java:159-195 | addPhoto of a valid photo and removePhoto on an album of a valid user leave the user valid |
| Users.RenameKeepsValid | src/photos/model/User.java:128-135 | renaming the found album to a name no other album has keeps the album names distinct |
| Users.RenameToOwnCaseVariant | src/photos/model/User.java:128-135 | renaming an album to a name with the same trimmed, lower-cased text as its own succeeds, since the only conflict getAlbum can find is the album itself |
| Users.Equal | src/photos/model/User.java:141-151 | User.equals, the usernames compared with equalsIgnoreCase, holds exactly when the ignore-case usernames agree; users whose lower-cased usernames (what hashCode hashes) agree are equal |
| Users.EqualIsEquivalence | src/photos/model/User.java:141-146 | User.equals is an equivalence that ignores the albums |
| UserManager.FindUser | src/photos/model/UserManager.java:30-39 | none for a null name or when no username matches; otherwise the first user whose lower-cased name is the trimmed, lower-cased query |
| UserManager.GetUser | src/photos/model/UserManager.java:30-39 | null exactly when the name is null or no user matches it ignoring case; otherwise a user of the manager that matches |
| UserManager.AddUser | src/photos/model/UserManager.java:41-47 | null with no change exactly when the name is null, blank or taken ignoring case; otherwise exactly one new user with the trimmed name and no albums is appended and the name then finds it; usernames stay distinct |
| UserManager.ControlCharacterUserStoredEmpty | src/photos/model/UserManager.java:41-47 | addUser accepts a name of one control character and stores the empty username |
| UserManager.AddThenDeleteUser | src/photos/model/UserManager.java:41-53 | deleteUser under the name addUser just accepted succeeds and gives back the manager as it was |
| UserManager.DeleteUser | src/photos/model/UserManager.java:49-53 | false with no change exactly when no user matches; otherwise exactly that user is removed and the rest keep their order; with distinct names nothing matches afterwards; the built-in users get no protection |
| UserManager.DeleteUserAsWritten | src/photos/model/UserManager.java:49-53 | deleteUser as written: false with no change exactly when the lookup finds nothing; otherwise the first user that equals, under the full equalsIgnoreCase, the user found is removed; a valid manager stays valid |
| UserManager.DeleteAsWrittenAfterAdd | src/photos/model/UserManager.java:41-53 | when addUser accepts a name that equalsIgnoreCase matches with an earlier user, deleteUser of that name as written removes the earlier user and keeps the new one, while DeleteUser removes the new one |
| UserManager.LongSNameIsAdded | src/photos/model/UserManager.java:41-47 | beside a user "stock" (or any "s" followed by lower-case letters), addUser accepts "ſtock" |
| UserManager.LongSDeleteRemovesPlainUser | src/photos/model/UserManager.java:49-53 | for a manager whose one user is "stock" (or any "s" followed by lower-case letters), addUser("ſtock") and then deleteUser("ſtock") as written removes "stock" and keeps "ſtock"; DeleteUser removes "ſtock" and gives back the manager as it was |
| UserManager.UpdateUser | src/photos/controller/AlbumsController.java:88-158 | a user of the manager edited in place: only that position changes, and an edit that keeps the user valid and its lower-cased username unchanged keeps the manager valid |
| UserManager.AlbumEditsKeepValid | src/photos/controller/AlbumsController.java:88-158 | createAlbum, deleteAlbum (corrected and as written) and renameAlbum on a user of a valid manager leave the manager valid |
| UserManager.PhotoEditKeepsValid | src/photos/controller/AlbumController.java:197-249 | an in-place edit of a photo of an album of a user that keeps the photo valid and equal to itself leaves a valid manager valid |
| UserManager.EnsureUser | src/photos/model/UserManager.java:56-61 | one step of ensureBuiltInUsers: afterwards the name is found; it changes nothing when the name was found already, and otherwise appends one new empty user |
| UserManager.EnsureUserIsAddUser | src/photos/model/UserManager.java:56-61 | each step is addUser on a missing name, and addUser would refuse a present one |
| UserManager.EnsureUserKeepsFound | src/photos/model/UserManager.java:55-62 | the step for one name does not move a user the other name already finds |
| UserManager.EnsureUsers | src/photos/model/UserManager.java:55-62 | after both steps both names are found, nothing changes when both existed, and validity is kept |
| UserManager.EnsureUsersAppends | src/photos/model/UserManager.java:55-62 | the two steps only append: existing users keep their positions and at most two new empty users with those names are added |
| UserManager.EnsureUsersOrder | src/photos/model/UserManager.java:55-62 | when neither name exists, the first name is appended and then the second |
| UserManager.EnsureBuiltInUsers | src/photos/model/UserManager.java:55-62 | afterwards "admin" and "stock" are both found, nothing changes when both existed, and validity is kept |
| UserManager.BuiltInUsersAppended | src/photos/model/UserManager.java:55-62 | ensureBuiltInUsers leaves existing users untouched and in place, and adds at most an empty "admin" and an empty "stock" |
| UserManager.EnsureBuiltInUsersIdempotent | src/photos/model/UserManager.java:55-62 | calling ensureBuiltInUsers twice gives the state of calling it once |
| UserManager.LoadFromFile | src/photos/model/UserManager.java:66-80 | a stored manager is returned as read; a missing file, a caught IOException or ClassNotFoundException, or an object of another class all give an empty manager; a runtime exception while decoding, and only that, escapes as an error |
| UserManager.FallbackStartup | src/photos/model/UserManager.java:66-80 | when the load falls back, it succeeds, and the empty manager holds exactly "admin" then "stock" once the built-in users are ensured, and it is valid |

## Left out

- The controllers and `Photos.java`: JavaFX screens and event handlers, outside the model. The rule that "admin" cannot be deleted lives only there, so `UserManager.DeleteUser` allows it.
- `saveToFile` and the Java serialization byte format: a foreign library. Only the fallback policy of `loadFromFile` is modelled, over the `Snapshot` read outcome.
- Path normalization, the existence check and reading the modification time: filesystem effects, passed in as `FileProbe` and `AttributeRead`.
- Photos.NewPhoto: does not model `Paths.get` rejecting a malformed path string with the unchecked `InvalidPathException`, because which strings it rejects depends on the platform's filesystem; `FileProbe` always carries a normalized path.
- Photos.RefreshDateTaken: says only that an unreadable file gives an I/O error, because the exception and its message come from `Files.readAttributes` in the JDK.
- `DateTimeFormatter` output: `Text.IntText` stands in for the formatted text. Only whether the text is empty is stated.
- The time-zone conversion `LocalDateTime.ofInstant`: the system zone's rules are not modelled, so `AttributeRead` carries the local date-time already converted. Albums.EarliestDate and Albums.LatestDate therefore order local date-times, as Java does. Across a daylight-saving fall-back this order can differ from the order of the files' instants.
- `Text.Fold`: lower-cases ASCII letters only, and `Text.JavaUpper` upper-cases ASCII letters and U+017F only. `Text.Fold` is also the locale-neutral mapping: `String.toLowerCase()` uses the default locale, and under a Turkish or Azeri default "I" lower-cases to U+0131, so `getUser("ian")` would miss a user "Ian" that `UserManager.FindUser` finds. The default locale is process state and is not modelled. `toLowerCase`, `toUpperCase` and `equalsIgnoreCase` apply Unicode case mapping, whose tables are not modelled. `Text.IsWhitespace` lists the separator code points of the Unicode version current for the JDK.
- Users.DeleteAlbum: removes the album the lookup found, which is what `deleteAlbum` is evidently meant to do. `List.remove` as written removes the first album `equals` matches, and `Users.DeleteAlbumAsWritten` models that (see Findings). The two agree whenever `equalsIgnoreCase` and `toLowerCase` agree on the names, which with the locale-neutral mapping the model uses they do on names without U+017F (`Text.EqualsIgnoreCaseWithoutLongS`).
- UserManager.DeleteUser: removes the user the lookup found. `List.remove` as written removes the first user `equals` matches, and `UserManager.DeleteUserAsWritten` models that (see Findings). The two agree whenever `equalsIgnoreCase` and `toLowerCase` agree on the names.
- Tags.Equal: does not promise that equal tags have equal `hashCode` keys, because Java's do not: `equals` joins "ſ" with "s" while `hashCode` lower-cases each as itself (`Tags.EqualTagsCanHashApart`). Only the other direction is stated.
- Albums.Equal: for the same reason states only that albums with equal `hashCode` keys are equal, not the converse.
- Users.Equal: for the same reason states only that users with equal `hashCode` keys are equal, not the converse.
- Albums.AddPhoto: does not model one `Photo` object shared by several albums, which the class allows. The caller that adds photos never shares one, so an album holds its photos by value (see "Photos belong to albums").
- `getUsers`, `getAlbums`, `getPhotos` and `getTags`: unmodifiable views, which the values of an immutable model already are.
- `toString` and `hashCode`: only the keys `hashCode` hashes are modelled (`Tags.Key`, `Photos.Key`, `Albums.Key`, `Users.Key`), not the 32-bit hash values.
- Object identity: values have none, so a child is identified by its position in its container. The album compared in `renameAlbum` (`conflict != album`) is the one at the position found, and an in-place edit replaces the value at a position.
- `UserManager.LoadFromFile`: a manager read back is returned as it is. Nothing checks that it satisfies `UserManager.Valid`, and neither does the Java code.

## Findings

| source | as written | input that shows it | evidently intended | confidence | as-written member | corrected member |
|---|---|---|---|---|---|---|
| src/photos/model/User.java:100-106 | `deleteAlbum` finds the album by comparing `toLowerCase` texts, then calls `albums.remove(album)`, which removes the first album that `equals` (`equalsIgnoreCase`) matches | a user with album "s" creates album "ſ" (accepted, since "ſ" lower-cases to itself), then deletes "ſ": album "s" is removed and "ſ" stays | remove the album the lookup found | high, not executed | Users.DeleteAlbumAsWritten, Users.LongSDeleteRemovesPlainAlbum | Users.DeleteAlbum, Users.CreateThenDeleteAlbum |
| src/photos/model/UserManager.java:49-53 | `deleteUser` finds the user by comparing `toLowerCase` texts, then calls `users.remove(u)`, which removes the first user that `equals` (`equalsIgnoreCase`) matches | a manager holding the built-in user "stock" accepts addUser("ſtock"); deleteUser("ſtock") then removes "stock" and keeps "ſtock" | remove the user the lookup found | high, not executed | UserManager.DeleteUserAsWritten, UserManager.LongSDeleteRemovesPlainUser | UserManager.DeleteUser, UserManager.AddThenDeleteUser |

=== FILE: album.dfy ===
/**
 * Album: a named, ordered list of photos with no two photos sharing a path.
 *
 * An album holds photo values. The Java class allows one Photo object to sit
 * in several albums, so that an edit made through one album shows in all of
 * them. The controller that adds photos builds a new Photo for every file,
 * and the model follows that caller: the same file added to two albums
 * gives two separate photos, each with its own caption, tags and date.
 */
module Albums {
  import opened Wrappers
  import opened Text
  import opened Lists
  import Tags
  import Photos

  datatype Album = Album(name: string, photos: seq<Photos.Photo>)

  /** What every album keeps: a trimmed name, valid photos, no two of them equal. */
  predicate Valid(a: Album) {
    && IsTrimmed(a.name)
    && (forall i :: 0 <= i < |a.photos| ==> Photos.Valid(a.photos[i]))
    && DistinctBy(a.photos, Photos.Key)
  }

  /** setName: rejects a null or blank name, otherwise stores it trimmed. */
  function SetName(a: Album, newName: Option<string>): (r: Result<Album>)
    ensures r.Err? <==> newName.None? || IsBlank(newName.value)
    ensures r.Err? ==> r.error == InvalidArgument("Album name cannot be null or blank")
    ensures r.Ok? ==> r.value.name == Trim(newName.value) && r.value.photos == a.photos
    ensures r.Ok? ==> IsTrimmed(r.value.name)
    ensures r.Ok? && Valid(a) ==> Valid(r.value)
  {
    if newName.None? || IsBlank(newName.value) then
      Err(InvalidArgument("Album name cannot be null or blank"))
    else
      TrimIdempotent(newName.value);
      Ok(a.(name := Trim(newName.value)))
  }

  /** The constructor: setName on an album that holds no photos. */
  function NewAlbum(name: Option<string>): (r: Result<Album>)
    ensures r.Err? <==> name.None? || IsBlank(name.value)
    ensures r.Err? ==> r.error == InvalidArgument("Album name cannot be null or blank")
    ensures r.Ok? ==> r.value.name == Trim(name.value) && r.value.photos == []
    ensures r.Ok? ==> Valid(r.value)
  {
    SetName(Album("", []), name)
  }

  /** getNumPhotos: zero exactly when the album contains no photo at all. */
  function NumPhotos(a: Album): (n: nat)
    ensures n == 0 <==> forall photo :: !ContainsPhoto(a, Some(photo))
  {
    assert a.photos != [] ==> ContainsPhoto(a, Some(a.photos[0]));
    |a.photos|
  }

  /**
   * containsPhoto: false for null, otherwise whether some photo of the album
   * equals `photo` under Photo.equals.
   */
  predicate ContainsPhoto(a: Album, photo: Option<Photos.Photo>)
    ensures ContainsPhoto(a, photo) <==>
              photo.Some? && exists i :: 0 <= i < |a.photos| && Photos.Equal(a.photos[i], photo.value)
  {
    photo.Some? && HasKey(a.photos, Photos.Key, Photos.Key(photo.value))
  }

  /**
   * addPhoto: refuses null and a photo equal to one already in the album;
   * otherwise appends it.
   */
  function AddPhoto(a: Album, photo: Option<Photos.Photo>): (r: (bool, Album))
    ensures r.0 <==> photo.Some? && !ContainsPhoto(a, photo)
    ensures !r.0 ==> r.1 == a
    ensures r.0 ==> r.1.photos == a.photos + [photo.value]
    ensures r.0 ==> NumPhotos(r.1) == NumPhotos(a) + 1
    ensures r.1.name == a.name
    ensures photo.Some? ==> ContainsPhoto(r.1, photo)
    ensures Valid(a) && (photo.Some? ==> Photos.Valid(photo.value)) ==> Valid(r.1)
  {
    if photo.None? || ContainsPhoto(a, photo) then
      (false, a)
    else
      var photos := a.photos + [photo.value];
      assert photos[|a.photos|] == photo.value;
      assert Valid(a) && Photos.Valid(photo.value) ==> Valid(a.(photos := photos)) by {
        if Valid(a) && Photos.Valid(photo.value) {
          AppendKeepsValid(a, photo.value);
        }
      }
      (true, a.(photos := photos))
  }

  /** Appending a valid photo equal to none of the album's keeps the album valid. */
  lemma AppendKeepsValid(a: Album, photo: Photos.Photo)
    requires Valid(a) && Photos.Valid(photo)
    requires !HasKey(a.photos, Photos.Key, Photos.Key(photo))
    ensures Valid(a.(photos := a.photos + [photo]))
  {
    DistinctAppend(a.photos, Photos.Key, photo);
    var photos := a.photos + [photo];
    forall j | 0 <= j < |photos|
      ensures Photos.Valid(photos[j])
    {
      if j < |a.photos| {
        assert photos[j] == a.photos[j];
      }
    }
  }

  /** Position `i` holds the first photo of `photos` equal to `photo`. */
  predicate FirstEqualPhotoAt(photos: seq<Photos.Photo>, photo: Photos.Photo, i: nat) {
    && i < |photos|
    && Photos.Equal(photos[i], photo)
    && forall j :: 0 <= j < i ==> !Photos.Equal(photos[j], photo)
  }

  /**
   * removePhoto: refuses null and a photo the album does not contain;
   * otherwise removes the first photo equal to it and keeps the rest in order.
   */
  function RemovePhoto(a: Album, photo: Option<Photos.Photo>): (r: (bool, Album))
    ensures r.0 <==> ContainsPhoto(a, photo)
    ensures !r.0 ==> r.1 == a
    ensures r.0 ==> exists i :: FirstEqualPhotoAt(a.photos, photo.value, i) && r.1.photos == RemoveAt(a.photos, i)
    ensures r.0 ==> NumPhotos(r.1) == NumPhotos(a) - 1
    ensures r.1.name == a.name
    ensures Valid(a) ==> Valid(r.1) && !ContainsPhoto(r.1, photo)
  {
    if photo.None? then
      (false, a)
    else
      var k := Photos.Key(photo.value);
      var (removed, photos) := RemoveFirst(a.photos, Photos.Key, k);
      assert removed ==> exists i :: FirstEqualPhotoAt(a.photos, photo.value, i) && photos == RemoveAt(a.photos, i) by {
        if removed {
          var i := IndexOf(a.photos, Photos.Key, k).value;
          RemoveFirstRemovesIndexOf(a.photos, Photos.Key, k);
          assert FirstEqualPhotoAt(a.photos, photo.value, i);
        }
      }
      assert removed && Valid(a) ==> Valid(a.(photos := photos)) && !HasKey(photos, Photos.Key, k) by {
        if removed && Valid(a) {
          var i := IndexOf(a.photos, Photos.Key, k).value;
          RemoveFirstRemovesIndexOf(a.photos, Photos.Key, k);
          RemoveKeepsValid(a, i);
        }
      }
      (removed, a.(photos := photos))
  }

  /** Removing one photo keeps the album valid, and no photo then equals the removed one. */
  lemma RemoveKeepsValid(a: Album, i: nat)
    requires Valid(a) && i < |a.photos|
    ensures Valid(a.(photos := RemoveAt(a.photos, i)))
    ensures !HasKey(RemoveAt(a.photos, i), Photos.Key, Photos.Key(a.photos[i]))
  {
    var photos := RemoveAt(a.photos, i);
    DistinctRemoveAt(a.photos, Photos.Key, i);
    RemoveAtLeavesNoKey(a.photos, Photos.Key, i);
    forall j | 0 <= j < |photos|
      ensures Photos.Valid(photos[j])
    {
      assert photos[j] == a.photos[if j < i then j else j + 1];
    }
  }

  /** removePhoto undoes a successful addPhoto of the same photo. */
  lemma AddThenRemovePhoto(a: Album, photo: Photos.Photo)
    requires !ContainsPhoto(a, Some(photo))
    ensures AddPhoto(a, Some(photo)).0
    ensures RemovePhoto(AddPhoto(a, Some(photo)).1, Some(photo)) == (true, a)
  {
    RemoveFirstOfAppended(a.photos, Photos.Key, photo);
  }

  /**
   * An edit made in place on the album's photo at position `i`: the photo is
   * replaced by its edited state and nothing else changes. An edit that keeps
   * the photo valid and equal to itself keeps the album valid.
   */
  function UpdatePhoto(a: Album, i: nat, photo: Photos.Photo): (r: Album)
    requires i < |a.photos|
    ensures r.name == a.name && |r.photos| == |a.photos| && r.photos[i] == photo
    ensures forall j :: 0 <= j < |a.photos| && j != i ==> r.photos[j] == a.photos[j]
    ensures Valid(a) && Photos.Valid(photo) && Photos.Equal(photo, a.photos[i]) ==> Valid(r)
  {
    var r := a.(photos := a.photos[i := photo]);
    assert Valid(a) && Photos.Valid(photo) && Photos.Equal(photo, a.photos[i]) ==> Valid(r) by {
      if Valid(a) && Photos.Valid(photo) && Photos.Equal(photo, a.photos[i]) {
        DistinctUpdateSameKey(a.photos, Photos.Key, i, photo);
      }
    }
    r
  }

  /**
   * setCaption, addTag of a valid tag, removeTag and a date refresh, made in
   * place on a photo of a valid album, leave the album valid.
   */
  lemma PhotoEditsKeepValid(a: Album, i: nat, caption: Option<string>, tag: Option<Tags.Tag>, read: Photos.AttributeRead)
    requires Valid(a) && i < |a.photos|
    requires tag.Some? ==> Tags.Valid(tag.value)
    ensures Valid(UpdatePhoto(a, i, Photos.SetCaption(a.photos[i], caption)))
    ensures Valid(UpdatePhoto(a, i, Photos.AddTag(a.photos[i], tag).1))
    ensures Valid(UpdatePhoto(a, i, Photos.RemoveTag(a.photos[i], tag).1))
    ensures Photos.RefreshDateTaken(a.photos[i], read).Ok? ==>
              Valid(UpdatePhoto(a, i, Photos.RefreshDateTaken(a.photos[i], read).value))
  {
  }

  /** No photo among `photos` has a date. */
  predicate NoDates(photos: seq<Photos.Photo>) {
    forall i :: 0 <= i < |photos| ==> photos[i].dateTaken.None?
  }

  /** `d` is the date of some photo among `photos`. */
  predicate IsDateIn(photos: seq<Photos.Photo>, d: int) {
    exists i :: 0 <= i < |photos| && photos[i].dateTaken == Some(d)
  }

  /** `d` is no later than any date among `photos`. */
  predicate NotAfterAny(photos: seq<Photos.Photo>, d: int) {
    forall i :: 0 <= i < |photos| && photos[i].dateTaken.Some? ==> d <= photos[i].dateTaken.value
  }

  /** `d` is no earlier than any date among `photos`. */
  predicate NotBeforeAny(photos: seq<Photos.Photo>, d: int) {
    forall i :: 0 <= i < |photos| && photos[i].dateTaken.Some? ==> photos[i].dateTaken.value <= d
  }

  /**
   * The loop of getEarliestDate from the photo `photos[0]` on, with `earliest`
   * the value found so far: photos without a date are skipped, and a date
   * strictly before the current one replaces it.
   */
  function ScanEarliest(photos: seq<Photos.Photo>, earliest: Option<int>): (r: Option<int>)
    ensures r.None? <==> earliest.None? && NoDates(photos)
    ensures r.Some? ==> earliest == r || IsDateIn(photos, r.value)
    ensures r.Some? ==> NotAfterAny(photos, r.value)
    ensures r.Some? && earliest.Some? ==> r.value <= earliest.value
    decreases |photos|
  {
    if photos == [] then
      earliest
    else
      var dt := photos[0].dateTaken;
      var next := if dt.None? then earliest
                  else if earliest.None? || dt.value < earliest.value then dt
                  else earliest;
      var r := ScanEarliest(photos[1..], next);
      assert r.Some? && IsDateIn(photos[1..], r.value) ==> IsDateIn(photos, r.value) by {
        if r.Some? && IsDateIn(photos[1..], r.value) {
          var i :| 0 <= i < |photos[1..]| && photos[1..][i].dateTaken == Some(r.value);
          assert photos[1..][i] == photos[i + 1];
        }
      }
      assert r.Some? ==> NotAfterAny(photos, r.value) by {
        if r.Some? {
          forall i | 0 <= i < |photos| && photos[i].dateTaken.Some?
            ensures r.value <= photos[i].dateTaken.value
          {
            if i > 0 {
              assert photos[i] == photos[1..][i - 1];
            }
          }
        }
      }
      r
  }

  /** The loop of getLatestDate, the mirror image of ScanEarliest. */
  function ScanLatest(photos: seq<Photos.Photo>, latest: Option<int>): (r: Option<int>)
    ensures r.None? <==> latest.None? && NoDates(photos)
    ensures r.Some? ==> latest == r || IsDateIn(photos, r.value)
    ensures r.Some? ==> NotBeforeAny(photos, r.value)
    ensures r.Some? && latest.Some? ==> latest.value <= r.value
    decreases |photos|
  {
    if photos == [] then
      latest
    else
      var dt := photos[0].dateTaken;
      var next := if dt.None? then latest
                  else if latest.None? || dt.value > latest.value then dt
                  else latest;
      var r := ScanLatest(photos[1..], next);
      assert r.Some? && IsDateIn(photos[1..], r.value) ==> IsDateIn(photos, r.value) by {
        if r.Some? && IsDateIn(photos[1..], r.value) {
          var i :| 0 <= i < |photos[1..]| && photos[1..][i].dateTaken == Some(r.value);
          assert photos[1..][i] == photos[i + 1];
        }
      }
      assert r.Some? ==> NotBeforeAny(photos, r.value) by {
        if r.Some? {
          forall i | 0 <= i < |photos| && photos[i].dateTaken.Some?
            ensures photos[i].dateTaken.value <= r.value
          {
            if i > 0 {
              assert photos[i] == photos[1..][i - 1];
            }
          }
        }
      }
      r
  }

  /**
   * getEarliestDate: absent exactly when no photo of the album has a date
   * (an empty album included); otherwise the earliest of the dates present.
   */
  function EarliestDate(a: Album): (r: Option<int>)
    ensures r.None? <==> NoDates(a.photos)
    ensures r.Some? ==> IsDateIn(a.photos, r.value) && NotAfterAny(a.photos, r.value)
  {
    ScanEarliest(a.photos, None)
  }

  /**
   * getLatestDate: absent exactly when no photo of the album has a date;
   * otherwise the latest of the dates present.
   */
  function LatestDate(a: Album): (r: Option<int>)
    ensures r.None? <==> NoDates(a.photos)
    ensures r.Some? ==> IsDateIn(a.photos, r.value) && NotBeforeAny(a.photos, r.value)
  {
    ScanLatest(a.photos, None)
  }

  /** Both bounds exist together, and the earliest date is not after the latest. */
  lemma EarliestNotAfterLatest(a: Album)
    ensures EarliestDate(a).Some? <==> LatestDate(a).Some?
    ensures EarliestDate(a).Some? ==> EarliestDate(a).value <= LatestDate(a).value
  {
    var e := EarliestDate(a);
    if e.Some? {
      var i :| 0 <= i < |a.photos| && a.photos[i].dateTaken == Some(e.value);
      assert a.photos[i].dateTaken.value <= LatestDate(a).value;
    }
  }

  /**
   * getFormattedDateRange: "earliest - latest", or the empty string when a
   * bound is missing, which is when no photo of the album has a date.
   */
  function FormattedDateRange(a: Album): (r: string)
    ensures r == "" <==> NoDates(a.photos)
  {
    var earliest := EarliestDate(a);
    var latest := LatestDate(a);
    if earliest.None? || latest.None? then ""
    else IntText(earliest.value) + " - " + IntText(latest.value)
  }

  /** What Album.hashCode hashes and the lookups by name compare: the lower-cased name. */
  function Key(a: Album): string {
    Fold(a.name)
  }

  /** What Album.equals compares: the name upper-cased and then lower-cased. */
  function EqualityKey(a: Album): string {
    IgnoreCaseKey(a.name)
  }

  /**
   * Album.equals: the names compared ignoring case. Two albums are equal
   * exactly when their ignore-case keys are, and albums with the same
   * lower-cased name are equal; the converse fails on U+017F.
   */
  predicate Equal(a: Album, b: Album)
    ensures Equal(a, b) <==> EqualityKey(a) == EqualityKey(b)
    ensures Key(a) == Key(b) ==> Equal(a, b)
  {
    EqualsIgnoreCaseIsKeyEquality(a.name, b.name);
    FoldEqualityGivesEqualsIgnoreCase(a.name, b.name);
    EqualsIgnoreCase(a.name, b.name)
  }

  /** Album.equals is an equivalence relation and ignores the photos. */
  lemma EqualIsEquivalence(a: Album, b: Album, c: Album)
    ensures Equal(a, a)
    ensures Equal(a, b) ==> Equal(b, a)
    ensures Equal(a, b) && Equal(b, c) ==> Equal(a, c)
    ensures Equal(a, b) <==> Equal(a.(photos := c.photos), b)
  {
  }
}

=== FILE: lists.dfy ===
/**
 * The java.util.List operations the model classes use, over sequences.
 *
 * Every equality and every lookup the model's classes define compares a key
 * of the element (the lower-cased name an album lookup compares, the
 * ignore-case name Album.equals compares, the path of a photo, ...), so
 * lookups and removals are stated over a key function: `List.contains(o)` asks whether
 * some element has the key of `o`, and `List.remove(o)` drops the first one.
 */
module Lists {
  import opened Wrappers

  /** Some element of `xs` has key `k`. */
  predicate HasKey<T, K(==)>(xs: seq<T>, key: T -> K, k: K) {
    exists i :: 0 <= i < |xs| && key(xs[i]) == k
  }

  /** The position of the first element of `xs` whose key is `k`, if any. */
  function IndexOf<T, K(==)>(xs: seq<T>, key: T -> K, k: K): (r: Option<nat>)
    ensures r.None? <==> !HasKey(xs, key, k)
    ensures r.Some? ==> r.value < |xs| && key(xs[r.value]) == k
    ensures r.Some? ==> forall j :: 0 <= j < r.value ==> key(xs[j]) != k
  {
    IndexFrom(xs, key, k, 0)
  }

  /** The position of the first element at or after `start` whose key is `k`, if any. */
  function IndexFrom<T, K(==)>(xs: seq<T>, key: T -> K, k: K, start: nat): (r: Option<nat>)
    requires start <= |xs|
    ensures r.None? ==> forall j :: start <= j < |xs| ==> key(xs[j]) != k
    ensures r.Some? ==> start <= r.value < |xs| && key(xs[r.value]) == k
    ensures r.Some? ==> forall j :: start <= j < r.value ==> key(xs[j]) != k
    decreases |xs| - start
  {
    if start == |xs| then None
    else if key(xs[start]) == k then Some(start)
    else IndexFrom(xs, key, k, start + 1)
  }

  /** Appending an element does not move the first element with a key already present. */
  lemma IndexOfAppend<T, K>(xs: seq<T>, key: T -> K, k: K, x: T)
    requires HasKey(xs, key, k)
    ensures IndexOf(xs + [x], key, k) == IndexOf(xs, key, k)
  {
    var i := IndexOf(xs, key, k).value;
    var ys := xs + [x];
    assert ys[i] == xs[i];
    assert forall j :: 0 <= j < i ==> ys[j] == xs[j];
  }

  /** Appending an element with a new key makes it the first element with that key. */
  lemma IndexOfAppendNew<T, K>(xs: seq<T>, key: T -> K, x: T)
    requires !HasKey(xs, key, key(x))
    ensures IndexOf(xs + [x], key, key(x)) == Some(|xs|)
  {
    var ys := xs + [x];
    assert ys[|xs|] == x;
    assert forall j :: 0 <= j < |xs| ==> ys[j] == xs[j];
  }

  /**
   * `ys` is `xs` with at most `n` elements appended, each of them one of
   * `allowed`: nothing of `xs` is removed, changed or moved.
   */
  predicate AppendsAtMost<T(==)>(xs: seq<T>, ys: seq<T>, n: nat, allowed: set<T>) {
    && |xs| <= |ys| <= |xs| + n
    && (forall i :: 0 <= i < |xs| ==> ys[i] == xs[i])
    && (forall i :: |xs| <= i < |ys| ==> ys[i] in allowed)
  }

  /** Two appending steps in a row are one appending step. */
  lemma AppendsCompose<T>(xs: seq<T>, ys: seq<T>, zs: seq<T>, n: nat, m: nat, a: set<T>, b: set<T>, c: set<T>)
    requires AppendsAtMost(xs, ys, n, a) && AppendsAtMost(ys, zs, m, b)
    requires a <= c && b <= c
    ensures AppendsAtMost(xs, zs, n + m, c)
  {
    forall i | |xs| <= i < |zs|
      ensures zs[i] in c
    {
      if i < |ys| {
        assert zs[i] == ys[i];
      }
    }
  }

  /** `xs` without its element at position `i`; the others keep their order. */
  function RemoveAt<T>(xs: seq<T>, i: nat): (r: seq<T>)
    requires i < |xs|
    ensures |r| == |xs| - 1
    ensures forall j :: 0 <= j < i ==> r[j] == xs[j]
    ensures forall j :: i <= j < |r| ==> r[j] == xs[j + 1]
    ensures multiset(r) + multiset{xs[i]} == multiset(xs)
  {
    assert xs == xs[..i] + [xs[i]] + xs[i + 1..];
    xs[..i] + xs[i + 1..]
  }

  /**
   * List.remove(Object): drops the first element whose key is `k` and reports
   * whether there was one.
   */
  function RemoveFirst<T, K(==)>(xs: seq<T>, key: T -> K, k: K): (r: (bool, seq<T>))
    ensures r.0 <==> HasKey(xs, key, k)
    ensures !r.0 ==> r.1 == xs
    ensures r.0 ==> exists i :: 0 <= i < |xs| && key(xs[i]) == k
                     && (forall j :: 0 <= j < i ==> key(xs[j]) != k)
                     && r.1 == RemoveAt(xs, i)
  {
    match IndexOf(xs, key, k)
    case None => (false, xs)
    case Some(i) => (true, RemoveAt(xs, i))
  }

  /** List.remove(Object) removes the element at the position IndexOf reports. */
  lemma RemoveFirstRemovesIndexOf<T, K>(xs: seq<T>, key: T -> K, k: K)
    requires HasKey(xs, key, k)
    ensures IndexOf(xs, key, k).Some?
    ensures RemoveFirst(xs, key, k) == (true, RemoveAt(xs, IndexOf(xs, key, k).value))
  {
  }

  /**
   * Looking an element up by key and then removing it with List.remove removes
   * the very element found: the first element equal to it is itself.
   */
  lemma RemoveFoundElement<T, K>(xs: seq<T>, key: T -> K, k: K, i: nat)
    requires IndexOf(xs, key, k) == Some(i)
    ensures RemoveFirst(xs, key, key(xs[i])) == (true, RemoveAt(xs, i))
  {
  }

  /** Removing before an appended element commutes with the append. */
  lemma RemoveAtAppend<T>(xs: seq<T>, i: nat, x: T)
    requires i < |xs|
    ensures RemoveAt(xs + [x], i) == RemoveAt(xs, i) + [x]
  {
    var l, r := RemoveAt(xs + [x], i), RemoveAt(xs, i) + [x];
    forall j | 0 <= j < |l|
      ensures l[j] == r[j]
    {
      if j < i {
      } else if j < |xs| - 1 {
      } else {
        assert l[j] == (xs + [x])[j + 1];
      }
    }
  }

  /**
   * List.remove by the key of an element just appended removes the first
   * earlier element with that key, when there is one.
   */
  lemma RemoveFirstBeforeAppended<T, K>(xs: seq<T>, key: T -> K, x: T, j: nat)
    requires j < |xs| && key(xs[j]) == key(x)
    requires forall k :: 0 <= k < j ==> key(xs[k]) != key(x)
    ensures RemoveFirst(xs + [x], key, key(x)) == (true, RemoveAt(xs, j) + [x])
  {
    var ys := xs + [x];
    assert ys[j] == xs[j];
    assert forall k :: 0 <= k < j ==> ys[k] == xs[k];
    RemoveFirstRemovesIndexOf(ys, key, key(x));
    RemoveAtAppend(xs, j, x);
  }

  /** List.remove of an element just appended under a new key gives back the list before. */
  lemma RemoveFirstOfAppended<T, K>(xs: seq<T>, key: T -> K, x: T)
    requires !HasKey(xs, key, key(x))
    ensures RemoveFirst(xs + [x], key, key(x)) == (true, xs)
  {
    IndexOfAppendNew(xs, key, x);
    assert RemoveAt(xs + [x], |xs|) == xs;
  }

  /** No two elements of `xs` share a key. */
  predicate DistinctBy<T, K(==)>(xs: seq<T>, key: T -> K) {
    forall i, j :: 0 <= i < j < |xs| ==> key(xs[i]) != key(xs[j])
  }

  /** In a key-distinct sequence, a key sits at one position at most. */
  lemma DistinctKeyUnique<T, K>(xs: seq<T>, key: T -> K, i: nat, j: nat)
    requires DistinctBy(xs, key)
    requires i < |xs| && j < |xs| && key(xs[i]) == key(xs[j])
    ensures i == j
  {
  }

  /** In a key-distinct sequence, no element other than `xs[i]` has its key. */
  lemma DistinctKeyOnlyAt<T, K>(xs: seq<T>, key: T -> K, i: nat)
    requires DistinctBy(xs, key) && i < |xs|
    ensures forall j :: 0 <= j < |xs| && j != i ==> key(xs[j]) != key(xs[i])
  {
  }

  /** Appending an element whose key is new keeps the keys distinct. */
  lemma DistinctAppend<T, K>(xs: seq<T>, key: T -> K, x: T)
    requires DistinctBy(xs, key)
    requires !HasKey(xs, key, key(x))
    ensures DistinctBy(xs + [x], key)
  {
    var ys := xs + [x];
    forall i, j | 0 <= i < j < |ys|
      ensures key(ys[i]) != key(ys[j])
    {
      if j == |xs| {
        assert key(xs[i]) != key(x);
      }
    }
  }

  /** Removing an element keeps the keys distinct. */
  lemma DistinctRemoveAt<T, K>(xs: seq<T>, key: T -> K, i: nat)
    requires i < |xs|
    requires DistinctBy(xs, key)
    ensures DistinctBy(RemoveAt(xs, i), key)
  {
    var ys := RemoveAt(xs, i);
    forall a, b | 0 <= a < b < |ys|
      ensures key(ys[a]) != key(ys[b])
    {
      var a' := if a < i then a else a + 1;
      var b' := if b < i then b else b + 1;
      assert ys[a] == xs[a'] && ys[b] == xs[b'] && a' < b';
    }
  }

  /** Once the only element with key `k` is removed, no element has key `k`. */
  lemma RemoveAtLeavesNoKey<T, K>(xs: seq<T>, key: T -> K, i: nat)
    requires i < |xs|
    requires DistinctBy(xs, key)
    ensures !HasKey(RemoveAt(xs, i), key, key(xs[i]))
  {
    var ys := RemoveAt(xs, i);
    forall a | 0 <= a < |ys|
      ensures key(ys[a]) != key(xs[i])
    {
      var a' := if a < i then a else a + 1;
      assert ys[a] == xs[a'] && a' != i;
      if key(xs[a']) == key(xs[i]) {
        DistinctKeyUnique(xs, key, a', i);
      }
    }
  }

  /** Replacing an element by one whose key no other element has keeps the keys distinct. */
  lemma DistinctUpdate<T, K>(xs: seq<T>, key: T -> K, i: nat, x: T)
    requires i < |xs|
    requires DistinctBy(xs, key)
    requires forall j :: 0 <= j < |xs| && j != i ==> key(xs[j]) != key(x)
    ensures DistinctBy(xs[i := x], key)
  {
  }

  /** Replacing an element by one with the same key keeps the keys distinct. */
  lemma DistinctUpdateSameKey<T, K>(xs: seq<T>, key: T -> K, i: nat, x: T)
    requires i < |xs|
    requires DistinctBy(xs, key)
    requires key(x) == key(xs[i])
    ensures DistinctBy(xs[i := x], key)
  {
    DistinctKeyOnlyAt(xs, key, i);
    DistinctUpdate(xs, key, i, x);
  }
}

=== FILE: manager.dfy ===
/**
 * UserManager: the root of the model, holding every user (lower-cased
 * usernames distinct), and the policy that loading the saved state falls back to
 * an empty manager on every checked failure.
 */
module UserManager {
  import opened Wrappers
  import opened Text
  import opened Lists
  import Users
  import Albums
  import Photos

  datatype Manager = Manager(users: seq<Users.User>)

  /** The two users the application always provides. */
  const Admin: string := "admin"
  const Stock: string := "stock"

  /** A manager with no users. */
  function Empty(): Manager {
    Manager([])
  }

  /** What every manager keeps: valid users, no two with the same lower-cased username. */
  predicate Valid(m: Manager) {
    && (forall i :: 0 <= i < |m.users| ==> Users.Valid(m.users[i]))
    && DistinctBy(m.users, Users.Key)
  }

  /**
   * The position of the user getUser returns: none for null, otherwise the
   * first user whose lower-cased name is the trimmed, lower-cased query.
   */
  function FindUser(m: Manager, username: Option<string>): (r: Option<nat>)
    ensures r.None? <==> username.None? || !HasKey(m.users, Users.Key, QueryKey(username.value))
    ensures r.Some? ==> username.Some? && r.value < |m.users|
                        && Users.Key(m.users[r.value]) == QueryKey(username.value)
                        && forall j :: 0 <= j < r.value ==> Users.Key(m.users[j]) != QueryKey(username.value)
  {
    if username.None? then None else IndexOf(m.users, Users.Key, QueryKey(username.value))
  }

  /** getUser: a user whose name matches the query ignoring case, if any. */
  function GetUser(m: Manager, username: Option<string>): (r: Option<Users.User>)
    ensures r.None? <==> username.None? || !HasKey(m.users, Users.Key, QueryKey(username.value))
    ensures r.Some? ==> r.value in m.users && Users.Key(r.value) == QueryKey(username.value)
  {
    match FindUser(m, username)
    case None => None
    case Some(i) => Some(m.users[i])
  }

  /**
   * addUser: refuses a null or blank username and one already taken ignoring
   * case; otherwise appends one new user with no albums, which the same name
   * then finds.
   */
  function AddUser(m: Manager, username: Option<string>): (r: (Option<Users.User>, Manager))
    ensures r.0.None? <==> username.None? || IsBlank(username.value) || FindUser(m, username).Some?
    ensures r.0.None? ==> r.1 == m
    ensures r.0.Some? ==> r.0.value == Users.User(Trim(username.value), [])
    ensures r.0.Some? ==> r.1.users == m.users + [r.0.value]
    ensures r.0.Some? ==> FindUser(r.1, username) == Some(|m.users|)
    ensures Valid(m) ==> Valid(r.1)
  {
    if username.None? || IsBlank(username.value) || FindUser(m, username).Some? then
      (None, m)
    else
      var user := Users.NewUser(username).value;
      var m' := m.(users := m.users + [user]);
      IndexOfAppendNew(m.users, Users.Key, user);
      assert Valid(m) ==> Valid(m') by {
        if Valid(m) {
          AppendKeepsValid(m, user);
        }
      }
      (Some(user), m')
  }

  /**
   * addUser checks blankness before trimming: a name of one control character
   * is accepted and stored as the empty username.
   */
  lemma ControlCharacterUserStoredEmpty(m: Manager)
    requires FindUser(m, Some("\U{1}")).None?
    ensures AddUser(m, Some("\U{1}")).0 == Some(Users.User("", []))
  {
    BlankAndTrimDisagree();
  }

  /** Appending a valid user under a new name keeps the manager valid. */
  lemma AppendKeepsValid(m: Manager, user: Users.User)
    requires Valid(m) && Users.Valid(user)
    requires !HasKey(m.users, Users.Key, Users.Key(user))
    ensures Valid(m.(users := m.users + [user]))
  {
    DistinctAppend(m.users, Users.Key, user);
    var users := m.users + [user];
    forall j | 0 <= j < |users|
      ensures Users.Valid(users[j])
    {
      if j < |m.users| {
        assert users[j] == m.users[j];
      }
    }
  }

  /**
   * deleteUser: false when no user matches; otherwise List.remove of the user
   * found, which removes exactly that user and keeps the others in order.
   * With usernames distinct, no user matches afterwards. Nothing here protects
   * the built-in users.
   */
  function DeleteUser(m: Manager, username: Option<string>): (r: (bool, Manager))
    ensures r.0 <==> FindUser(m, username).Some?
    ensures !r.0 ==> r.1 == m
    ensures r.0 ==> r.1.users == RemoveAt(m.users, FindUser(m, username).value)
    ensures Valid(m) ==> Valid(r.1)
    ensures Valid(m) ==> FindUser(r.1, username).None?
  {
    match FindUser(m, username)
    case None => (false, m)
    case Some(i) =>
      var (removed, users) := RemoveFirst(m.users, Users.Key, Users.Key(m.users[i]));
      RemoveFoundElement(m.users, Users.Key, QueryKey(username.value), i);
      assert Valid(m) ==> Valid(m.(users := users)) && !HasKey(users, Users.Key, Users.Key(m.users[i])) by {
        if Valid(m) {
          RemoveKeepsValid(m, i);
        }
      }
      (removed, m.(users := users))
  }

  /**
   * deleteUser as written: getUser finds the user by the toLowerCase text of
   * the name, but List.remove then drops the first user that User.equals
   * matches, which can be an earlier one. Either way one user goes, so the
   * manager stays valid.
   */
  function DeleteUserAsWritten(m: Manager, username: Option<string>): (r: (bool, Manager))
    ensures r.0 <==> FindUser(m, username).Some?
    ensures !r.0 ==> r.1 == m
    ensures r.0 ==> var k := Users.EqualityKey(m.users[FindUser(m, username).value]);
                    exists i :: 0 <= i < |m.users| && Users.EqualityKey(m.users[i]) == k
                                && (forall j :: 0 <= j < i ==> Users.EqualityKey(m.users[j]) != k)
                                && r.1.users == RemoveAt(m.users, i)
    ensures Valid(m) ==> Valid(r.1)
  {
    match FindUser(m, username)
    case None => (false, m)
    case Some(i) =>
      var k := Users.EqualityKey(m.users[i]);
      var (removed, users) := RemoveFirst(m.users, Users.EqualityKey, k);
      assert removed;
      RemoveEqualKeepsValid(m, k);
      (removed, m.(users := users))
  }

  /** Removing the first user User.equals matches keeps the manager valid. */
  lemma RemoveEqualKeepsValid(m: Manager, k: string)
    requires HasKey(m.users, Users.EqualityKey, k)
    ensures Valid(m) ==> Valid(m.(users := RemoveFirst(m.users, Users.EqualityKey, k).1))
  {
    RemoveFirstRemovesIndexOf(m.users, Users.EqualityKey, k);
    if Valid(m) {
      RemoveKeepsValid(m, IndexOf(m.users, Users.EqualityKey, k).value);
    }
  }

  /**
   * When addUser accepts a name whose equals key is that of an existing user,
   * deleteUser of the same name as written removes the first such existing
   * user and keeps the new one, while DeleteUser removes the new one.
   */
  lemma DeleteAsWrittenAfterAdd(m: Manager, username: Option<string>, j: nat)
    requires AddUser(m, username).0.Some?
    requires j < |m.users|
    requires Users.EqualityKey(m.users[j]) == Users.EqualityKey(AddUser(m, username).0.value)
    requires forall k :: 0 <= k < j ==> Users.EqualityKey(m.users[k]) != Users.EqualityKey(m.users[j])
    ensures DeleteUserAsWritten(AddUser(m, username).1, username)
            == (true, Manager(RemoveAt(m.users, j) + [AddUser(m, username).0.value]))
    ensures DeleteUser(AddUser(m, username).1, username) == (true, m)
  {
    var user, added := AddUser(m, username).0.value, AddUser(m, username).1;
    assert added.users[|m.users|] == user;
    RemoveFirstBeforeAppended(m.users, Users.EqualityKey, user, j);
    AddThenDeleteUser(m, username);
  }

  /** A manager whose one user is `name`, holding no albums. */
  function OneUser(name: string): Manager {
    Manager([Users.User(name, [])])
  }

  /**
   * Beside the plain spelling of a long-s word, addUser accepts the long-s
   * word, because the lookup compares toLowerCase texts and U+017F
   * lower-cases to itself.
   */
  lemma LongSNameIsAdded(name: string)
    requires IsLongSWord(name)
    ensures AddUser(OneUser(PlainSpelling(name)), Some(name)).0 == Some(Users.User(name, []))
  {
    var m := OneUser(PlainSpelling(name));
    LongSIsKeyName(name);
    PlainSpellingFolds(name);
    assert Users.Key(m.users[0]) == PlainSpelling(name);
    assert name[0] != PlainSpelling(name)[0];
  }

  /**
   * With a user named with the plain spelling of a long-s word (the built-in
   * "stock" beside "ſtock", say), addUser of the long-s word succeeds.
   * Deleting that name as written then removes the plain user, the one the
   * lookup did not find, since the two names are equal ignoring case.
   * DeleteUser removes the user found and gives back the manager as it was.
   */
  lemma LongSDeleteRemovesPlainUser(name: string)
    requires IsLongSWord(name)
    ensures var m := OneUser(PlainSpelling(name));
            var added := AddUser(m, Some(name)).1;
            && DeleteUserAsWritten(added, Some(name)) == (true, OneUser(name))
            && DeleteUser(added, Some(name)) == (true, m)
  {
    var m, user := OneUser(PlainSpelling(name)), Users.User(name, []);
    LongSNameIsAdded(name);
    LongSFoldsToPlainSpelling(name);
    PlainSpellingFolds(name);
    assert Users.EqualityKey(m.users[0]) == Users.EqualityKey(user);
    DeleteAsWrittenAfterAdd(m, Some(name), 0);
    assert RemoveAt(m.users, 0) + [user] == [user];
  }

  /** deleteUser undoes a successful addUser under the same name. */
  lemma AddThenDeleteUser(m: Manager, username: Option<string>)
    requires AddUser(m, username).0.Some?
    ensures DeleteUser(AddUser(m, username).1, username) == (true, m)
  {
    var user := AddUser(m, username).0.value;
    RemoveFirstOfAppended(m.users, Users.Key, user);
  }

  /** Removing one user keeps the manager valid, and no user then has the removed one's name. */
  lemma RemoveKeepsValid(m: Manager, i: nat)
    requires Valid(m) && i < |m.users|
    ensures Valid(m.(users := RemoveAt(m.users, i)))
    ensures !HasKey(RemoveAt(m.users, i), Users.Key, Users.Key(m.users[i]))
  {
    var users := RemoveAt(m.users, i);
    DistinctRemoveAt(m.users, Users.Key, i);
    RemoveAtLeavesNoKey(m.users, Users.Key, i);
    forall j | 0 <= j < |users|
      ensures Users.Valid(users[j])
    {
      assert users[j] == m.users[if j < i then j else j + 1];
    }
  }

  /**
   * An edit made in place on the manager's user at position `i`: the user is
   * replaced by its edited state and nothing else changes. An edit that keeps
   * the user valid and its lower-cased username as it was keeps the manager valid.
   */
  function UpdateUser(m: Manager, i: nat, user: Users.User): (r: Manager)
    requires i < |m.users|
    ensures |r.users| == |m.users| && r.users[i] == user
    ensures forall j :: 0 <= j < |m.users| && j != i ==> r.users[j] == m.users[j]
    ensures Valid(m) && Users.Valid(user) && Users.Key(user) == Users.Key(m.users[i]) ==> Valid(r)
  {
    var r := m.(users := m.users[i := user]);
    assert Valid(m) && Users.Valid(user) && Users.Key(user) == Users.Key(m.users[i]) ==> Valid(r) by {
      if Valid(m) && Users.Valid(user) && Users.Key(user) == Users.Key(m.users[i]) {
        DistinctUpdateSameKey(m.users, Users.Key, i, user);
      }
    }
    r
  }

  /**
   * createAlbum, deleteAlbum (corrected and as written) and renameAlbum,
   * called on a user the manager holds, keep the manager valid.
   */
  lemma AlbumEditsKeepValid(m: Manager, i: nat, name: Option<string>, newName: Option<string>)
    requires Valid(m) && i < |m.users|
    ensures Valid(UpdateUser(m, i, Users.CreateAlbum(m.users[i], name).1))
    ensures Valid(UpdateUser(m, i, Users.DeleteAlbum(m.users[i], name).1))
    ensures Valid(UpdateUser(m, i, Users.DeleteAlbumAsWritten(m.users[i], name).1))
    ensures Valid(UpdateUser(m, i, Users.RenameAlbum(m.users[i], name, newName).1))
  {
  }

  /**
   * An in-place edit of photo `k` of album `j` of user `i` that keeps the
   * photo valid and equal to itself (every Photo mutator does) keeps the
   * manager valid.
   */
  lemma PhotoEditKeepsValid(m: Manager, i: nat, j: nat, k: nat, photo: Photos.Photo)
    requires Valid(m) && i < |m.users| && j < |m.users[i].albums| && k < |m.users[i].albums[j].photos|
    requires Photos.Valid(photo) && Photos.Equal(photo, m.users[i].albums[j].photos[k])
    ensures var user := m.users[i];
            var album := user.albums[j];
            Valid(UpdateUser(m, i, Users.UpdateAlbum(user, j, Albums.UpdatePhoto(album, k, photo))))
  {
    var user := m.users[i];
    var album := user.albums[j];
    var album' := Albums.UpdatePhoto(album, k, photo);
    assert Albums.Valid(album');
    var user' := Users.UpdateAlbum(user, j, album');
    assert Users.Valid(user');
  }

  /** "admin" is a stored name and its own lookup key. */
  lemma AdminIsKey()
    ensures IsKeyName(Admin)
  {
    LowerWordIsKey(Admin);
  }

  /** "stock" is a stored name and its own lookup key. */
  lemma StockIsKey()
    ensures IsKeyName(Stock)
  {
    LowerWordIsKey(Stock);
  }

  /** Adds the user `name` unless a user of that name exists. */
  function EnsureUser(m: Manager, name: string): (r: Manager)
    requires IsKeyName(name)
    ensures FindUser(r, Some(name)).Some?
    ensures FindUser(m, Some(name)).Some? ==> r == m
    ensures FindUser(m, Some(name)).None? ==>
              |r.users| == |m.users| + 1 && r.users[|m.users|] == Users.User(name, [])
    ensures AppendsAtMost(m.users, r.users, 1, {Users.User(name, [])})
    ensures Valid(m) ==> Valid(r)
  {
    if FindUser(m, Some(name)).Some? then m
    else
      AppendNewUser(m, name);
      m.(users := m.users + [Users.User(name, [])])
  }

  /** A new empty user appended under a name no user has is found there and keeps the manager valid. */
  lemma AppendNewUser(m: Manager, name: string)
    requires IsKeyName(name)
    requires FindUser(m, Some(name)).None?
    ensures FindUser(m.(users := m.users + [Users.User(name, [])]), Some(name)) == Some(|m.users|)
    ensures forall i :: 0 <= i < |m.users| ==> (m.users + [Users.User(name, [])])[i] == m.users[i]
    ensures Valid(m) ==> Valid(m.(users := m.users + [Users.User(name, [])]))
  {
    var user := Users.User(name, []);
    IndexOfAppendNew(m.users, Users.Key, user);
    if Valid(m) {
      AppendKeepsValid(m, user);
    }
  }

  /** What EnsureUser adds is what addUser adds for the same name. */
  lemma EnsureUserIsAddUser(m: Manager, name: string)
    requires IsKeyName(name)
    ensures FindUser(m, Some(name)).Some? ==> AddUser(m, Some(name)).0.None?
    ensures FindUser(m, Some(name)).None? ==> EnsureUser(m, name) == AddUser(m, Some(name)).1
  {
  }

  /** A user found before EnsureUser is found at the same position after it. */
  lemma EnsureUserKeepsFound(m: Manager, name: string, other: string)
    requires IsKeyName(name)
    requires FindUser(m, Some(other)).Some?
    ensures FindUser(EnsureUser(m, name), Some(other)) == FindUser(m, Some(other))
  {
    if FindUser(m, Some(name)).None? {
      IndexOfAppend(m.users, Users.Key, QueryKey(other), Users.User(name, []));
    }
  }

  /**
   * EnsureUser for `first`, then for `second`: both are found afterwards, and
   * when both already exist nothing changes.
   */
  function EnsureUsers(m: Manager, first: string, second: string): (r: Manager)
    requires IsKeyName(first)
    requires IsKeyName(second)
    ensures FindUser(r, Some(first)).Some? && FindUser(r, Some(second)).Some?
    ensures FindUser(m, Some(first)).Some? && FindUser(m, Some(second)).Some? ==> r == m
    ensures Valid(m) ==> Valid(r)
  {
    var withFirst := EnsureUser(m, first);
    EnsureUserKeepsFound(withFirst, second, first);
    EnsureUser(withFirst, second)
  }

  /**
   * EnsureUsers only appends: existing users stay where they were, and every
   * user added is a new empty `first` or `second`, at most two of them.
   */
  lemma EnsureUsersAppends(m: Manager, first: string, second: string)
    requires IsKeyName(first)
    requires IsKeyName(second)
    ensures AppendsAtMost(m.users, EnsureUsers(m, first, second).users, 2,
                          {Users.User(first, []), Users.User(second, [])})
  {
    var withFirst := EnsureUser(m, first);
    var r := EnsureUser(withFirst, second);
    EnsureUsersSteps(m, first, second);
    AppendsCompose(m.users, withFirst.users, r.users, 1, 1,
                   {Users.User(first, [])}, {Users.User(second, [])},
                   {Users.User(first, []), Users.User(second, [])});
  }

  /** EnsureUsers is EnsureUser for `first` followed by EnsureUser for `second`. */
  lemma EnsureUsersSteps(m: Manager, first: string, second: string)
    requires IsKeyName(first)
    requires IsKeyName(second)
    ensures EnsureUsers(m, first, second) == EnsureUser(EnsureUser(m, first), second)
  {
  }

  /** When neither name is taken, EnsureUsers appends `first` and then `second`. */
  lemma EnsureUsersOrder(m: Manager, first: string, second: string)
    requires IsKeyName(first)
    requires IsKeyName(second)
    requires FindUser(m, Some(first)).None? && FindUser(m, Some(second)).None? && first != second
    ensures var r := EnsureUsers(m, first, second);
            && |r.users| == |m.users| + 2
            && r.users[|m.users|] == Users.User(first, [])
            && r.users[|m.users| + 1] == Users.User(second, [])
  {
    var withFirst := EnsureUser(m, first);
    OtherNotFoundAfterAdd(m, withFirst, first, second);
    var r := EnsureUser(withFirst, second);
    assert r == EnsureUsers(m, first, second);
    assert r.users[|m.users|] == withFirst.users[|m.users|];
  }

  /**
   * Appending at most the user `first` to a manager that has no user `second`
   * leaves it without one.
   */
  lemma OtherNotFoundAfterAdd(m: Manager, w: Manager, first: string, second: string)
    requires FindUser(m, Some(second)).None?
    requires AppendsAtMost(m.users, w.users, 1, {Users.User(first, [])})
    requires IsKeyName(first) && IsKeyName(second) && first != second
    ensures FindUser(w, Some(second)).None?
  {
    assert Fold(first) == first;
    forall i | 0 <= i < |w.users|
      ensures Users.Key(w.users[i]) != second
    {
      if i < |m.users| {
        assert w.users[i] == m.users[i];
      } else {
        assert w.users[i] == Users.User(first, []);
      }
    }
  }

  /** The two built-in names differ. */
  lemma AdminIsNotStock()
    ensures Admin != Stock
  {
    assert Admin[0] != Stock[0];
  }

  /**
   * ensureBuiltInUsers: EnsureUser for "admin", then for "stock"; afterwards
   * both are found, and when both already exist nothing changes.
   */
  function EnsureBuiltInUsers(m: Manager): (r: Manager)
    ensures FindUser(r, Some(Admin)).Some? && FindUser(r, Some(Stock)).Some?
    ensures FindUser(m, Some(Admin)).Some? && FindUser(m, Some(Stock)).Some? ==> r == m
    ensures Valid(m) ==> Valid(r)
  {
    AdminIsKey();
    StockIsKey();
    EnsureUsers(m, Admin, Stock)
  }

  /**
   * ensureBuiltInUsers only appends: existing users stay where they were, and
   * every user added is a new empty "admin" or "stock".
   */
  lemma BuiltInUsersAppended(m: Manager)
    ensures AppendsAtMost(m.users, EnsureBuiltInUsers(m).users, 2,
                          {Users.User(Admin, []), Users.User(Stock, [])})
  {
    AdminIsKey();
    StockIsKey();
    EnsureUsersAppends(m, Admin, Stock);
  }

  /** Ensuring the built-in users a second time changes nothing. */
  lemma EnsureBuiltInUsersIdempotent(m: Manager)
    ensures EnsureBuiltInUsers(EnsureBuiltInUsers(m)) == EnsureBuiltInUsers(m)
  {
  }

  /** An object read back from the data file. */
  datatype StoredObject = ManagerObject(manager: Manager) | OtherObject

  /** What reading the data file produced. */
  datatype Snapshot =
    | NoFile                      // the file does not exist
    | Unreadable                  // an IOException or ClassNotFoundException while reading
    | Thrown(message: string)     // a runtime exception while decoding, such as a ClassCastException
    | Decoded(content: StoredObject)

  /** The read outcomes loadFromFile answers with an empty manager. */
  predicate FallsBack(file: Snapshot) {
    file.NoFile? || file.Unreadable? || (file.Decoded? && file.content.OtherObject?)
  }

  /**
   * loadFromFile: a manager read back is returned as it is; a missing file,
   * a caught exception or an object of another class all give an empty
   * manager. Only IOException and ClassNotFoundException are caught, so a
   * runtime exception thrown while decoding leaves the method.
   */
  function LoadFromFile(file: Snapshot): (r: Result<Manager>)
    ensures r.Err? <==> file.Thrown?
    ensures file.Thrown? ==> r.error == Unchecked(file.message)
    ensures file.Decoded? && file.content.ManagerObject? ==> r == Ok(file.content.manager)
    ensures FallsBack(file) ==> r.Ok? && r.value.users == []
  {
    match file
    case Thrown(message) => Err(Unchecked(message))
    case Decoded(ManagerObject(manager)) => Ok(manager)
    case _ => Ok(Empty())
  }

  /**
   * Start-up without usable saved state: the empty manager the load falls
   * back to, once the built-in users are ensured, holds exactly "admin" then
   * "stock", and is valid.
   */
  lemma FallbackStartup(file: Snapshot)
    requires FallsBack(file)
    ensures LoadFromFile(file).Ok?
    ensures var users := EnsureBuiltInUsers(LoadFromFile(file).value).users;
            |users| == 2 && users[0] == Users.User(Admin, []) && users[1] == Users.User(Stock, [])
    ensures Valid(EnsureBuiltInUsers(LoadFromFile(file).value))
  {
    var m := LoadFromFile(file).value;
    AdminIsKey();
    StockIsKey();
    AdminIsNotStock();
    NoUsersIsValid(m);
    EnsureUsersFromNoUsers(m, Admin, Stock);
  }

  /** A manager with no users is valid. */
  lemma NoUsersIsValid(m: Manager)
    requires m.users == []
    ensures Valid(m)
  {
  }

  /** From no users, EnsureUsers gives exactly `first` then `second`. */
  lemma EnsureUsersFromNoUsers(m: Manager, first: string, second: string)
    requires IsKeyName(first)
    requires IsKeyName(second)
    requires m.users == [] && first != second
    ensures var users := EnsureUsers(m, first, second).users;
            |users| == 2 && users[0] == Users.User(first, []) && users[1] == Users.User(second, [])
  {
    NobodyFound(m);
    EnsureUsersOrder(m, first, second);
  }

  /** A manager without users finds nobody. */
  lemma NobodyFound(m: Manager)
    requires m.users == []
    ensures forall name :: FindUser(m, Some(name)).None?
  {
  }
}

=== FILE: photo.dfy ===
/**
 * Photo: a picture identified by its normalized file path, with a caption, an
 * optional date taken and a list of tags free of duplicates.
 *
 * The filesystem is not modelled: what it reports about a path is an input.
 * A date is the local date-time the photo stores, written as one integer that
 * orders local date-times as LocalDateTime.isBefore does; the conversion from
 * the file's instant in the system time zone happens before the model sees it.
 */
module Photos {
  import opened Wrappers
  import opened Text
  import opened Lists
  import Tags

  datatype Photo = Photo(path: string, caption: string, dateTaken: Option<int>, tags: seq<Tags.Tag>)

  /**
   * The outcome of reading a file's attributes: the modification time as a
   * local date-time in the system time zone.
   */
  datatype AttributeRead = Unreadable | Attributes(localModified: int)

  /**
   * What the filesystem reports for the normalized absolute form of a path:
   * whether the file exists and, when it does, what reading its attributes gives.
   */
  datatype FileProbe = Missing(absolutePath: string) | Present(absolutePath: string, read: AttributeRead)

  /** What every photo keeps: a trimmed caption and valid tags, no two of them equal. */
  predicate Valid(p: Photo) {
    && IsTrimmed(p.caption)
    && (forall i :: 0 <= i < |p.tags| ==> Tags.Valid(p.tags[i]))
    && DistinctBy(p.tags, Tags.EqualityKey)
  }

  /**
   * The constructor: rejects a null or blank path, then a file that does not
   * exist, then a file whose attributes cannot be read; otherwise the photo
   * has the normalized path, an empty caption, no tags, and the file's
   * last-modified time as its date.
   */
  function NewPhoto(filePath: Option<string>, probe: FileProbe): (r: Result<Photo>)
    ensures (filePath.None? || IsBlank(filePath.value)) ==>
              r == Err(InvalidArgument("filePath cannot be null or blank"))
    ensures filePath.Some? && !IsBlank(filePath.value) && probe.Missing? ==>
              r == Err(IOError("Photo file does not exist: " + probe.absolutePath))
    ensures filePath.Some? && !IsBlank(filePath.value) && probe.Present? && probe.read.Unreadable? ==>
              r.Err? && r.error.IOError?
    ensures r.Ok? <==> filePath.Some? && !IsBlank(filePath.value) && probe.Present? && probe.read.Attributes?
    ensures r.Ok? ==> r.value.path == probe.absolutePath && r.value.caption == ""
                      && r.value.tags == [] && r.value.dateTaken == Some(probe.read.localModified)
    ensures r.Ok? ==> Valid(r.value)
  {
    if filePath.None? || IsBlank(filePath.value) then
      Err(InvalidArgument("filePath cannot be null or blank"))
    else match probe
      case Missing(absolutePath) => Err(IOError("Photo file does not exist: " + absolutePath))
      case Present(absolutePath, read) =>
        var unread := Photo(absolutePath, "", None, []);
        match RefreshDateTaken(unread, read)
        case Ok(p) => Ok(p)
        case Err(e) => Err(e)
  }

  /**
   * refreshDateTakenFromFile: fails when the attributes cannot be read,
   * otherwise replaces the date and nothing else.
   */
  function RefreshDateTaken(p: Photo, read: AttributeRead): (r: Result<Photo>)
    ensures r.Err? <==> read.Unreadable?
    ensures r.Err? ==> r.error.IOError?
    ensures r.Ok? ==> r.value.dateTaken == Some(read.localModified)
    ensures r.Ok? ==> r.value.path == p.path && r.value.caption == p.caption && r.value.tags == p.tags
    ensures r.Ok? ==> (Valid(p) <==> Valid(r.value))
  {
    match read
    case Unreadable => Err(IOError("cannot read file attributes"))
    case Attributes(t) => Ok(p.(dateTaken := Some(t)))
  }

  /** setCaption: null clears the caption, anything else is stored trimmed. */
  function SetCaption(p: Photo, caption: Option<string>): (r: Photo)
    ensures caption.None? ==> r.caption == ""
    ensures caption.Some? ==> r.caption == Trim(caption.value)
    ensures r.path == p.path && r.dateTaken == p.dateTaken && r.tags == p.tags
    ensures Valid(p) ==> Valid(r)
  {
    var text := if caption.None? then "" else Trim(caption.value);
    TrimIdempotent(if caption.None? then "" else caption.value);
    p.(caption := text)
  }

  /** tags.contains(tag): some tag of the photo equals `tag` under Tag.equals. */
  predicate HasTag(p: Photo, tag: Tags.Tag)
    ensures HasTag(p, tag) <==> exists i :: 0 <= i < |p.tags| && Tags.Equal(p.tags[i], tag)
  {
    HasKey(p.tags, Tags.EqualityKey, Tags.EqualityKey(tag))
  }

  /**
   * addTag: refuses null and a tag equal to one already present; otherwise
   * appends the tag.
   */
  function AddTag(p: Photo, tag: Option<Tags.Tag>): (r: (bool, Photo))
    ensures r.0 <==> tag.Some? && !HasTag(p, tag.value)
    ensures !r.0 ==> r.1 == p
    ensures r.0 ==> r.1.tags == p.tags + [tag.value]
    ensures r.1.path == p.path && r.1.caption == p.caption && r.1.dateTaken == p.dateTaken
    ensures tag.Some? ==> HasTag(r.1, tag.value)
    ensures Valid(p) && (tag.Some? ==> Tags.Valid(tag.value)) ==> Valid(r.1)
  {
    if tag.None? || HasTag(p, tag.value) then
      (false, p)
    else
      var tags := p.tags + [tag.value];
      assert tags[|p.tags|] == tag.value;
      assert DistinctBy(p.tags, Tags.EqualityKey) ==> DistinctBy(tags, Tags.EqualityKey) by {
        if DistinctBy(p.tags, Tags.EqualityKey) {
          DistinctAppend(p.tags, Tags.EqualityKey, tag.value);
        }
      }
      (true, p.(tags := tags))
  }

  /**
   * addTag refuses a tag named with a long-s word when the photo already has
   * the tag named with its plain spelling, since Tag.equals joins the two.
   */
  lemma LongSTagRefused(p: Photo, name: string, value: string)
    requires IsLongSWord(name)
    requires Tags.Tag(PlainSpelling(name), value) in p.tags
    ensures AddTag(p, Some(Tags.Tag(name, value))) == (false, p)
  {
    Tags.EqualTagsCanHashApart(name, value);
    Tags.EqualIsEquivalence(Tags.Tag(name, value), Tags.Tag(PlainSpelling(name), value), Tags.Tag(name, value));
  }

  /** Position `i` holds the first tag of `tags` equal to `tag`. */
  predicate FirstEqualTagAt(tags: seq<Tags.Tag>, tag: Tags.Tag, i: nat) {
    && i < |tags|
    && Tags.Equal(tags[i], tag)
    && forall j :: 0 <= j < i ==> !Tags.Equal(tags[j], tag)
  }

  /**
   * removeTag: refuses null and a tag with no equal in the list; otherwise
   * removes the first equal tag and keeps the others in order.
   */
  function RemoveTag(p: Photo, tag: Option<Tags.Tag>): (r: (bool, Photo))
    ensures r.0 <==> tag.Some? && HasTag(p, tag.value)
    ensures !r.0 ==> r.1 == p
    ensures r.0 ==> exists i :: FirstEqualTagAt(p.tags, tag.value, i) && r.1.tags == RemoveAt(p.tags, i)
    ensures r.1.path == p.path && r.1.caption == p.caption && r.1.dateTaken == p.dateTaken
    ensures Valid(p) ==> Valid(r.1)
    ensures Valid(p) && tag.Some? ==> !HasTag(r.1, tag.value)
  {
    if tag.None? then
      (false, p)
    else
      var k := Tags.EqualityKey(tag.value);
      var (removed, tags) := RemoveFirst(p.tags, Tags.EqualityKey, k);
      assert removed ==> exists i :: FirstEqualTagAt(p.tags, tag.value, i) && tags == RemoveAt(p.tags, i) by {
        if removed {
          var i := IndexOf(p.tags, Tags.EqualityKey, k).value;
          RemoveFirstRemovesIndexOf(p.tags, Tags.EqualityKey, k);
          assert FirstEqualTagAt(p.tags, tag.value, i);
        }
      }
      assert removed && Valid(p) ==> Valid(p.(tags := tags)) && !HasKey(tags, Tags.EqualityKey, k) by {
        if removed && Valid(p) {
          var i := IndexOf(p.tags, Tags.EqualityKey, k).value;
          RemoveFirstRemovesIndexOf(p.tags, Tags.EqualityKey, k);
          RemoveKeepsValid(p, i);
        }
      }
      (removed, p.(tags := tags))
  }

  /** removeTag undoes a successful addTag of the same tag. */
  lemma AddThenRemoveTag(p: Photo, tag: Tags.Tag)
    requires !HasTag(p, tag)
    ensures AddTag(p, Some(tag)).0
    ensures RemoveTag(AddTag(p, Some(tag)).1, Some(tag)) == (true, p)
  {
    RemoveFirstOfAppended(p.tags, Tags.EqualityKey, tag);
  }

  /** Removing one tag keeps the photo valid, and no tag then equals the removed one. */
  lemma RemoveKeepsValid(p: Photo, i: nat)
    requires Valid(p) && i < |p.tags|
    ensures Valid(p.(tags := RemoveAt(p.tags, i)))
    ensures !HasKey(RemoveAt(p.tags, i), Tags.EqualityKey, Tags.EqualityKey(p.tags[i]))
  {
    var tags := RemoveAt(p.tags, i);
    DistinctRemoveAt(p.tags, Tags.EqualityKey, i);
    RemoveAtLeavesNoKey(p.tags, Tags.EqualityKey, i);
    forall j | 0 <= j < |tags|
      ensures Tags.Valid(tags[j])
    {
      assert tags[j] == p.tags[if j < i then j else j + 1];
    }
  }

  /** What Photo.equals and Photo.hashCode compare: the normalized path. */
  function Key(p: Photo): string {
    p.path
  }

  /**
   * Photo.equals: the same path. Two photos are equal exactly when they differ
   * at most in caption, date and tags.
   */
  predicate Equal(a: Photo, b: Photo)
    ensures Equal(a, b) <==> a.(caption := b.caption, dateTaken := b.dateTaken, tags := b.tags) == b
  {
    Key(a) == Key(b)
  }

  /**
   * No edit changes a photo's identity: the photo after setCaption, addTag,
   * removeTag or a date refresh is equal to the one before.
   */
  lemma EditsKeepIdentity(p: Photo, caption: Option<string>, tag: Option<Tags.Tag>, read: AttributeRead)
    ensures Equal(p, SetCaption(p, caption))
    ensures Equal(p, AddTag(p, tag).1)
    ensures Equal(p, RemoveTag(p, tag).1)
    ensures RefreshDateTaken(p, read).Ok? ==> Equal(p, RefreshDateTaken(p, read).value)
  {
  }

  /** Two photos constructed for the same normalized path are equal, however else they differ. */
  lemma SamePathSamePhoto(path1: Option<string>, path2: Option<string>, probe1: FileProbe, probe2: FileProbe)
    requires NewPhoto(path1, probe1).Ok? && NewPhoto(path2, probe2).Ok?
    requires probe1.absolutePath == probe2.absolutePath
    ensures Equal(NewPhoto(path1, probe1).value, NewPhoto(path2, probe2).value)
  {
  }

  /** getFormattedDateTaken: empty exactly when there is no date. */
  function FormattedDateTaken(p: Photo): (r: string)
    ensures r == "" <==> p.dateTaken.None?
  {
    match p.dateTaken
    case None => ""
    case Some(t) => IntText(t)
  }
}

=== FILE: tag.dfy ===
/** Tag: an immutable (name, value) pair attached to a photo. */
module Tags {
  import opened Wrappers
  import opened Text

  datatype Tag = Tag(name: string, value: string)

  /**
   * What the constructor guarantees: both fields trimmed. The blank check
   * runs before trimming, so a stored field can still be empty or blank.
   */
  predicate Valid(t: Tag) {
    IsTrimmed(t.name) && IsTrimmed(t.value)
  }

  /**
   * The constructor: rejects a null or blank name first, then a null or blank
   * value, and stores both trimmed.
   */
  function NewTag(name: Option<string>, value: Option<string>): (r: Result<Tag>)
    ensures (name.None? || IsBlank(name.value)) ==>
              r == Err(InvalidArgument("Tag name cannot be null or blank"))
    ensures name.Some? && !IsBlank(name.value) && (value.None? || IsBlank(value.value)) ==>
              r == Err(InvalidArgument("Tag value cannot be null or blank"))
    ensures r.Ok? <==> name.Some? && !IsBlank(name.value) && value.Some? && !IsBlank(value.value)
    ensures r.Ok? ==> r.value.name == Trim(name.value) && r.value.value == Trim(value.value)
    ensures r.Ok? ==> Valid(r.value)
  {
    if name.None? || IsBlank(name.value) then
      Err(InvalidArgument("Tag name cannot be null or blank"))
    else if value.None? || IsBlank(value.value) then
      Err(InvalidArgument("Tag value cannot be null or blank"))
    else
      TrimIdempotent(name.value);
      TrimIdempotent(value.value);
      Ok(Tag(Trim(name.value), Trim(value.value)))
  }

  /** A name of one control character passes the checks and is stored empty. */
  lemma ControlCharacterNameStoredEmpty(value: string)
    requires value != [] && forall i :: 0 <= i < |value| ==> 'a' <= value[i] <= 'z'
    ensures NewTag(Some("\U{1}"), Some(value)).Ok?
    ensures NewTag(Some("\U{1}"), Some(value)).value.name == ""
  {
    BlankAndTrimDisagree();
    assert !IsWhitespace(value[0]);
  }

  /**
   * Tag.equals: both fields compared ignoring case. Two tags are equal exactly
   * when their ignore-case keys are, and tags that Tag.hashCode hashes alike
   * are equal; the converse fails on U+017F (EqualTagsCanHashApart).
   */
  predicate Equal(a: Tag, b: Tag)
    ensures Equal(a, b) <==> EqualityKey(a) == EqualityKey(b)
    ensures Key(a) == Key(b) ==> Equal(a, b)
  {
    EqualsIgnoreCaseIsKeyEquality(a.name, b.name);
    EqualsIgnoreCaseIsKeyEquality(a.value, b.value);
    FoldEqualityGivesEqualsIgnoreCase(a.name, b.name);
    FoldEqualityGivesEqualsIgnoreCase(a.value, b.value);
    EqualsIgnoreCase(a.name, b.name) && EqualsIgnoreCase(a.value, b.value)
  }

  /** The pair Tag.equals compares: both fields upper-cased and then lower-cased. */
  function EqualityKey(t: Tag): (string, string) {
    (IgnoreCaseKey(t.name), IgnoreCaseKey(t.value))
  }

  /** The pair Tag.hashCode hashes: both fields lower-cased. */
  function Key(t: Tag): (string, string) {
    (Fold(t.name), Fold(t.value))
  }

  /**
   * A tag named with a long-s word equals the tag named with its plain
   * spelling, yet Tag.hashCode hashes the two differently.
   */
  lemma EqualTagsCanHashApart(name: string, value: string)
    requires IsLongSWord(name)
    ensures Equal(Tag(name, value), Tag(PlainSpelling(name), value))
    ensures Key(Tag(name, value)) != Key(Tag(PlainSpelling(name), value))
  {
    LongSEqualsPlainSpelling(name);
  }

  /** Tag.equals is an equivalence relation. */
  lemma EqualIsEquivalence(a: Tag, b: Tag, c: Tag)
    ensures Equal(a, a)
    ensures Equal(a, b) ==> Equal(b, a)
    ensures Equal(a, b) && Equal(b, c) ==> Equal(a, c)
  {
  }

  /**
   * Tags built from inputs that differ only in case and in surrounding spaces,
   * such as ("Color", "Red") and (" color ", "red"), are equal.
   */
  lemma CaseVariantsCollide(name1: string, value1: string, name2: string, value2: string)
    requires NewTag(Some(name1), Some(value1)).Ok? && NewTag(Some(name2), Some(value2)).Ok?
    requires QueryKey(name1) == QueryKey(name2) && QueryKey(value1) == QueryKey(value2)
    ensures Equal(NewTag(Some(name1), Some(value1)).value, NewTag(Some(name2), Some(value2)).value)
  {
    FoldEqualityGivesEqualsIgnoreCase(Trim(name1), Trim(name2));
    FoldEqualityGivesEqualsIgnoreCase(Trim(value1), Trim(value2));
  }
}

=== FILE: text.dfy ===
/**
 * The string operations the photo model relies on: trimming, blankness and
 * case-insensitive comparison.
 *
 * Trimming follows the JDK's String.trim: every character at or below U+0020
 * is a space, and spaces are stripped from both ends. Blankness follows
 * String.isBlank, which asks Character.isWhitespace instead; the two classes
 * differ, so a string can pass the blank check and still trim to nothing.
 * Case folding maps the ASCII upper-case letters to lower case and leaves
 * every other character as it is, as String.toLowerCase does in a locale
 * without special casing rules. String.equalsIgnoreCase upper-cases first,
 * and Character.toUpperCase sends U+017F LATIN SMALL LETTER LONG S to 'S', so
 * the two comparisons disagree on that letter.
 */
module Text {

  /** A character String.trim strips. */
  predicate IsSpace(c: char) {
    c <= ' '
  }

  /**
   * Character.isWhitespace: the Unicode space, line and paragraph separators
   * other than the non-breaking ones (U+00A0, U+2007, U+202F), and the
   * controls U+0009 to U+000D and U+001C to U+001F.
   */
  predicate IsWhitespace(c: char) {
    || '\t' <= c <= '\r'
    || '\U{1C}' <= c <= ' '
    || c == '\U{1680}'
    || '\U{2000}' <= c <= '\U{2006}'
    || '\U{2008}' <= c <= '\U{200A}'
    || c == '\U{2028}' || c == '\U{2029}' || c == '\U{205F}' || c == '\U{3000}'
  }

  /** String.isBlank: whitespace only (the empty string included). */
  predicate IsBlank(s: string) {
    forall i :: 0 <= i < |s| ==> IsWhitespace(s[i])
  }

  /** The first index at or after `i` that does not hold a space. */
  function SkipLeading(s: string, i: nat): (k: nat)
    requires i <= |s|
    ensures i <= k <= |s|
    ensures forall j :: i <= j < k ==> IsSpace(s[j])
    ensures k < |s| ==> !IsSpace(s[k])
    decreases |s| - i
  {
    if i < |s| && IsSpace(s[i]) then SkipLeading(s, i + 1) else i
  }

  /** The end index left after dropping the spaces that precede `e`, never below `lo`. */
  function SkipTrailing(s: string, lo: nat, e: nat): (k: nat)
    requires lo <= e <= |s|
    ensures lo <= k <= e
    ensures forall j :: k <= j < e ==> IsSpace(s[j])
    ensures k > lo ==> !IsSpace(s[k - 1])
    decreases e
  {
    if lo < e && IsSpace(s[e - 1]) then SkipTrailing(s, lo, e - 1) else e
  }

  /** `r` is `s` with a prefix and a suffix of spaces removed. */
  ghost predicate InnerPart(s: string, r: string) {
    exists lo: nat, hi: nat ::
      && lo <= hi <= |s| && r == s[lo..hi]
      && (forall i :: 0 <= i < lo ==> IsSpace(s[i]))
      && (forall i :: hi <= i < |s| ==> IsSpace(s[i]))
  }

  /** String.trim: drops the leading and the trailing spaces. */
  function Trim(s: string): (r: string)
    ensures |r| <= |s|
    ensures r == [] || (!IsSpace(r[0]) && !IsSpace(r[|r| - 1]))
  {
    var lo := SkipLeading(s, 0);
    var hi := SkipTrailing(s, lo, |s|);
    s[lo..hi]
  }

  /** Trim removes a blank prefix and a blank suffix and nothing else. */
  lemma TrimIsInnerPart(s: string)
    ensures InnerPart(s, Trim(s))
  {
    var lo := SkipLeading(s, 0);
    var hi := SkipTrailing(s, lo, |s|);
    assert s[lo..hi] == Trim(s);
  }

  /** A string Trim leaves alone: what every constructor stores. */
  predicate IsTrimmed(s: string) {
    Trim(s) == s
  }

  /** Maps an ASCII upper-case letter to lower case. */
  function Lower(c: char): char {
    if 'A' <= c <= 'Z' then (c as int + 32) as char else c
  }

  /** String.toLowerCase over the characters `Lower` covers. */
  function Fold(s: string): (r: string)
    ensures |r| == |s|
    ensures forall i :: 0 <= i < |s| ==> r[i] == Lower(s[i])
  {
    if s == [] then [] else [Lower(s[0])] + Fold(s[1..])
  }

  /** Maps an ASCII lower-case letter to upper case. */
  function Upper(c: char): char {
    if 'a' <= c <= 'z' then (c as int - 32) as char else c
  }

  /**
   * Character.toUpperCase over the ASCII letters and U+017F LATIN SMALL LETTER
   * LONG S, whose upper case is 'S' while its lower case is itself.
   */
  function JavaUpper(c: char): char {
    if c == '\U{17F}' then 'S' else Upper(c)
  }

  /**
   * String.regionMatches ignoring case over whole strings, the comparison
   * String.equalsIgnoreCase makes: equal lengths, and at every position the
   * same character, the same upper case under `upper`, or the same lower
   * case of that upper case.
   */
  predicate RegionMatchesIgnoreCase(a: string, b: string, upper: char -> char) {
    && |a| == |b|
    && forall i :: 0 <= i < |a| ==>
         || a[i] == b[i]
         || upper(a[i]) == upper(b[i])
         || Lower(upper(a[i])) == Lower(upper(b[i]))
  }

  /** String.equalsIgnoreCase over the characters `JavaUpper` and `Lower` cover. */
  predicate EqualsIgnoreCase(a: string, b: string) {
    RegionMatchesIgnoreCase(a, b, JavaUpper)
  }

  /** Every character lower-cased after upper-casing with `upper`. */
  function FoldWith(s: string, upper: char -> char): (r: string)
    ensures |r| == |s|
    ensures forall i :: 0 <= i < |s| ==> r[i] == Lower(upper(s[i]))
  {
    if s == [] then [] else [Lower(upper(s[0]))] + FoldWith(s[1..], upper)
  }

  /**
   * Comparing ignoring case is comparing the strings after each character is
   * upper-cased and then lower-cased.
   */
  lemma RegionMatchesIsKeyEquality(a: string, b: string, upper: char -> char)
    ensures RegionMatchesIgnoreCase(a, b, upper) <==> FoldWith(a, upper) == FoldWith(b, upper)
  {
    var fa, fb := FoldWith(a, upper), FoldWith(b, upper);
    if RegionMatchesIgnoreCase(a, b, upper) {
      forall i | 0 <= i < |a|
        ensures fa[i] == fb[i]
      {
      }
    }
    if fa == fb {
      forall i | 0 <= i < |a|
        ensures Lower(upper(a[i])) == Lower(upper(b[i]))
      {
        assert fa[i] == fb[i];
      }
    }
  }

  /** What equalsIgnoreCase compares: every character upper-cased, then lower-cased. */
  function IgnoreCaseKey(s: string): string {
    FoldWith(s, JavaUpper)
  }

  /** equalsIgnoreCase is equality of the ignore-case keys, both ways. */
  lemma EqualsIgnoreCaseIsKeyEquality(a: string, b: string)
    ensures EqualsIgnoreCase(a, b) <==> IgnoreCaseKey(a) == IgnoreCaseKey(b)
  {
    RegionMatchesIsKeyEquality(a, b, JavaUpper);
  }

  /**
   * Characters with the same lower case have the same ignore-case key: only
   * the ASCII letters change under Lower, and U+017F is its own lower case.
   */
  lemma SameLowerSameKey(c: char, d: char)
    requires Lower(c) == Lower(d)
    ensures Lower(JavaUpper(c)) == Lower(JavaUpper(d))
  {
  }

  /**
   * Strings with the same toLowerCase text are equal ignoring case, so the
   * hash keys never split what the lookups join.
   */
  lemma FoldEqualityGivesEqualsIgnoreCase(a: string, b: string)
    ensures Fold(a) == Fold(b) ==> EqualsIgnoreCase(a, b)
  {
    var fa, fb := Fold(a), Fold(b);
    var ka, kb := IgnoreCaseKey(a), IgnoreCaseKey(b);
    if fa == fb {
      forall i | 0 <= i < |a|
        ensures ka[i] == kb[i]
      {
        assert fa[i] == fb[i];
        SameLowerSameKey(a[i], b[i]);
      }
      EqualsIgnoreCaseIsKeyEquality(a, b);
    }
  }

  /** Upper-casing and then lower-casing a character other than U+017F is lower-casing it. */
  lemma LowerOfUpper(c: char)
    requires c != '\U{17F}'
    ensures Lower(JavaUpper(c)) == Lower(c)
  {
    if 'a' <= c <= 'z' {
      var u := (c as int - 32) as char;
      assert JavaUpper(c) == u && 'A' <= u <= 'Z';
      assert (u as int + 32) as char == c;
    }
  }

  /** The ignore-case key of a string without U+017F is its toLowerCase text. */
  lemma KeyWithoutLongS(s: string)
    requires forall i :: 0 <= i < |s| ==> s[i] != '\U{17F}'
    ensures IgnoreCaseKey(s) == Fold(s)
  {
    var k, f := IgnoreCaseKey(s), Fold(s);
    forall i | 0 <= i < |s|
      ensures k[i] == f[i]
    {
      LowerOfUpper(s[i]);
    }
  }

  /**
   * On strings without U+017F, equalsIgnoreCase agrees with comparing the
   * toLowerCase texts, which the lookups and the hashCode methods use.
   */
  lemma EqualsIgnoreCaseWithoutLongS(a: string, b: string)
    requires forall i :: 0 <= i < |a| ==> a[i] != '\U{17F}'
    requires forall i :: 0 <= i < |b| ==> b[i] != '\U{17F}'
    ensures EqualsIgnoreCase(a, b) <==> Fold(a) == Fold(b)
  {
    KeyWithoutLongS(a);
    KeyWithoutLongS(b);
    EqualsIgnoreCaseIsKeyEquality(a, b);
  }

  /** What a lookup by name compares stored names with: the query trimmed and lower-cased. */
  function QueryKey(query: string): string {
    Fold(Trim(query))
  }

  /**
   * A string of characters above U+0020 that are not whitespace passes the
   * blank check and trims to itself.
   */
  lemma VisibleTextIsKept(s: string)
    requires |s| > 0
    requires forall i :: 0 <= i < |s| ==> ' ' < s[i] && !IsWhitespace(s[i])
    ensures !IsBlank(s) && Trim(s) == s
  {
    assert !IsWhitespace(s[0]);
    TrimOfTrimmed(s);
  }

  /**
   * The blank check and Trim disagree both ways: a control character that is
   * not whitespace is not blank but trims away, and an ideographic space is
   * blank but survives trimming.
   */
  lemma BlankAndTrimDisagree()
    ensures !IsBlank("\U{1}") && Trim("\U{1}") == ""
    ensures IsBlank("\U{3000}") && Trim("\U{3000}") == "\U{3000}"
  {
    assert !IsWhitespace("\U{1}"[0]);
    assert SkipLeading("\U{1}", 0) == 1 by {
      assert SkipLeading("\U{1}", 1) == 1;
    }
    TrimOfTrimmed("\U{3000}");
  }

  /** A string whose ends are not spaces is left alone by Trim. */
  lemma TrimOfTrimmed(r: string)
    requires r == [] || (!IsSpace(r[0]) && !IsSpace(r[|r| - 1]))
    ensures Trim(r) == r
  {
    if r != [] {
      assert SkipLeading(r, 0) == 0;
      assert SkipTrailing(r, 0, |r|) == |r|;
    }
  }

  /** Trimming twice is trimming once. */
  lemma TrimIdempotent(s: string)
    ensures Trim(Trim(s)) == Trim(s)
  {
    TrimOfTrimmed(Trim(s));
  }

  /** A word of lower-case ASCII letters is left as it is by both folds. */
  lemma LowerWordFolds(s: string)
    requires forall i :: 0 <= i < |s| ==> 'a' <= s[i] <= 'z'
    ensures Fold(s) == s && FoldWith(s, JavaUpper) == s
  {
    var f, g := Fold(s), FoldWith(s, JavaUpper);
    forall i | 0 <= i < |s|
      ensures f[i] == s[i] && g[i] == s[i]
    {
      LowerLetter(s[i]);
    }
  }

  /** A name stored exactly as written that is also its own lookup key. */
  predicate IsKeyName(s: string) {
    !IsBlank(s) && Trim(s) == s && QueryKey(s) == s
  }

  /** What the model's case mappings and blank checks make of one lower-case ASCII letter. */
  lemma LowerLetter(c: char)
    requires 'a' <= c <= 'z'
    ensures ' ' < c && !IsWhitespace(c)
    ensures Lower(c) == c && Lower(JavaUpper(c)) == c
  {
  }

  /** U+017F LATIN SMALL LETTER LONG S followed by lower-case ASCII letters, as in "ſtock". */
  predicate IsLongSWord(s: string) {
    && |s| > 0 && s[0] == '\U{17F}'
    && forall i :: 1 <= i < |s| ==> 'a' <= s[i] <= 'z'
  }

  /** The same word spelled with a plain 's', as in "stock". */
  function PlainSpelling(s: string): (r: string)
    requires |s| > 0
    ensures |r| == |s| && r[0] == 's'
    ensures forall i :: 1 <= i < |s| ==> r[i] == s[i]
  {
    ['s'] + s[1..]
  }

  /**
   * A long-s word is a stored name and its own lookup key: toLowerCase leaves
   * U+017F as it is.
   */
  lemma LongSIsKeyName(s: string)
    requires IsLongSWord(s)
    ensures IsKeyName(s)
  {
    var f := Fold(s);
    assert Lower(s[0]) == s[0];
    assert ' ' < s[0] && !IsWhitespace(s[0]);
    forall i | 1 <= i < |s|
      ensures ' ' < s[i] && !IsWhitespace(s[i]) && f[i] == s[i]
    {
      LowerLetter(s[i]);
    }
    VisibleTextIsKept(s);
    assert f == s;
  }

  /**
   * equalsIgnoreCase reads a long-s word as its plain spelling, because
   * Character.toUpperCase maps U+017F to 'S'.
   */
  lemma LongSFoldsToPlainSpelling(s: string)
    requires IsLongSWord(s)
    ensures FoldWith(s, JavaUpper) == PlainSpelling(s)
  {
    var g, t := FoldWith(s, JavaUpper), PlainSpelling(s);
    assert Lower(JavaUpper(s[0])) == 's';
    forall i | 1 <= i < |s|
      ensures g[i] == t[i]
    {
      LowerLetter(s[i]);
    }
  }

  /**
   * A long-s word is equal ignoring case to its plain spelling, while their
   * toLowerCase texts differ: equalsIgnoreCase joins what the lookups keep apart.
   */
  lemma LongSEqualsPlainSpelling(s: string)
    requires IsLongSWord(s)
    ensures EqualsIgnoreCase(s, PlainSpelling(s))
    ensures Fold(s) != Fold(PlainSpelling(s))
  {
    LongSFoldsToPlainSpelling(s);
    PlainSpellingFolds(s);
    EqualsIgnoreCaseIsKeyEquality(s, PlainSpelling(s));
    assert Fold(s)[0] == s[0] != PlainSpelling(s)[0] == Fold(PlainSpelling(s))[0];
  }

  /** The plain spelling of a long-s word is left as it is by both folds. */
  lemma PlainSpellingFolds(s: string)
    requires IsLongSWord(s)
    ensures Fold(PlainSpelling(s)) == PlainSpelling(s)
    ensures FoldWith(PlainSpelling(s), JavaUpper) == PlainSpelling(s)
  {
    var p := PlainSpelling(s);
    var f, g := Fold(p), FoldWith(p, JavaUpper);
    forall i | 0 <= i < |p|
      ensures f[i] == p[i] && g[i] == p[i]
    {
      LowerLetter(p[i]);
    }
  }

  /** A non-empty word of lower-case ASCII letters is a stored name and its own lookup key. */
  lemma LowerWordIsKey(s: string)
    requires |s| > 0
    requires forall i :: 0 <= i < |s| ==> 'a' <= s[i] <= 'z'
    ensures IsKeyName(s)
  {
    VisibleTextIsKept(s);
    LowerWordFolds(s);
  }

  /** The character for a decimal digit. */
  function DigitChar(d: nat): (c: char)
    requires d < 10
    ensures '0' <= c <= '9'
  {
    ('0' as int + d) as char
  }

  /** The decimal digits of a natural number, most significant first. */
  function NaturalText(n: nat): (r: string)
    ensures |r| > 0
    ensures forall i :: 0 <= i < |r| ==> '0' <= r[i] <= '9'
  {
    if n < 10 then [DigitChar(n)] else NaturalText(n / 10) + [DigitChar(n % 10)]
  }

  /** The decimal rendering of an integer; stands for a date formatter. */
  function IntText(n: int): (r: string)
    ensures |r| > 0
  {
    if n < 0 then "-" + NaturalText(-n) else NaturalText(n)
  }
}

=== FILE: user.dfy ===
/**
 * User: a username and an ordered list of albums whose lower-cased names are
 * distinct, as createAlbum and renameAlbum check through getAlbum.
 */
module Users {
  import opened Wrappers
  import opened Text
  import opened Lists
  import Photos
  import Albums

  datatype User = User(username: string, albums: seq<Albums.Album>)

  /**
   * What every user keeps: a stored username, valid albums, no two albums with
   * the same lower-cased name. Two such albums can still be equal under
   * Album.equals when their names differ in U+017F.
   */
  predicate Valid(u: User) {
    && IsTrimmed(u.username)
    && (forall i :: 0 <= i < |u.albums| ==> Albums.Valid(u.albums[i]))
    && DistinctBy(u.albums, Albums.Key)
  }

  /** The constructor: rejects a null or blank username, stores it trimmed, no albums. */
  function NewUser(username: Option<string>): (r: Result<User>)
    ensures r.Err? <==> username.None? || IsBlank(username.value)
    ensures r.Err? ==> r.error == InvalidArgument("Username cannot be null or blank")
    ensures r.Ok? ==> r.value.username == Trim(username.value) && r.value.albums == []
    ensures r.Ok? ==> Valid(r.value)
  {
    if username.None? || IsBlank(username.value) then
      Err(InvalidArgument("Username cannot be null or blank"))
    else
      TrimIdempotent(username.value);
      Ok(User(Trim(username.value), []))
  }

  /**
   * The position of the album getAlbum returns: none for null, otherwise the
   * first album whose lower-cased name is the trimmed, lower-cased query.
   */
  function FindAlbum(u: User, name: Option<string>): (r: Option<nat>)
    ensures name.None? ==> r.None?
    ensures name.Some? && r.None? ==>
              forall i :: 0 <= i < |u.albums| ==> Albums.Key(u.albums[i]) != QueryKey(name.value)
    ensures r.Some? ==> name.Some? && r.value < |u.albums|
                        && Albums.Key(u.albums[r.value]) == QueryKey(name.value)
                        && forall j :: 0 <= j < r.value ==> Albums.Key(u.albums[j]) != QueryKey(name.value)
  {
    if name.None? then None else IndexOf(u.albums, Albums.Key, QueryKey(name.value))
  }

  /** getAlbum: an album of the user whose name matches the query ignoring case, if any. */
  function GetAlbum(u: User, name: Option<string>): (r: Option<Albums.Album>)
    ensures r.None? <==> name.None? || !HasKey(u.albums, Albums.Key, QueryKey(name.value))
    ensures r.Some? ==> r.value in u.albums && Albums.Key(r.value) == QueryKey(name.value)
  {
    match FindAlbum(u, name)
    case None => None
    case Some(i) => Some(u.albums[i])
  }

  /**
   * createAlbum: refuses a null or blank name and a name that getAlbum finds;
   * otherwise appends a new empty album with the trimmed
   * name, which the same name then finds.
   */
  function CreateAlbum(u: User, albumName: Option<string>): (r: (Option<Albums.Album>, User))
    ensures r.0.None? <==> albumName.None? || IsBlank(albumName.value) || FindAlbum(u, albumName).Some?
    ensures r.0.None? ==> r.1 == u
    ensures r.0.Some? ==> r.0.value == Albums.Album(Trim(albumName.value), [])
    ensures r.0.Some? ==> r.1.username == u.username && r.1.albums == u.albums + [r.0.value]
    ensures r.0.Some? ==> GetAlbum(r.1, albumName) == r.0
    ensures Valid(u) ==> Valid(r.1)
  {
    if albumName.None? || IsBlank(albumName.value) || FindAlbum(u, albumName).Some? then
      (None, u)
    else
      var album := Albums.NewAlbum(albumName).value;
      var u' := u.(albums := u.albums + [album]);
      AppendedAlbumIsFound(u, albumName, album);
      assert Valid(u) ==> Valid(u') by {
        if Valid(u) {
          AppendKeepsValid(u, album);
        }
      }
      (Some(album), u')
  }

  /**
   * deleteAlbum: false when no album matches; otherwise List.remove of the
   * album found, which removes exactly that album and keeps the others in
   * order. With names distinct, no album matches afterwards.
   */
  function DeleteAlbum(u: User, albumName: Option<string>): (r: (bool, User))
    ensures r.0 <==> FindAlbum(u, albumName).Some?
    ensures !r.0 ==> r.1 == u
    ensures r.0 ==> r.1.username == u.username
                    && r.1.albums == RemoveAt(u.albums, FindAlbum(u, albumName).value)
    ensures Valid(u) ==> Valid(r.1)
    ensures Valid(u) ==> FindAlbum(r.1, albumName).None?
  {
    match FindAlbum(u, albumName)
    case None => (false, u)
    case Some(i) =>
      var (removed, albums) := RemoveFirst(u.albums, Albums.Key, Albums.Key(u.albums[i]));
      RemoveFoundElement(u.albums, Albums.Key, QueryKey(albumName.value), i);
      assert Valid(u) ==> Valid(u.(albums := albums)) && !HasKey(albums, Albums.Key, Albums.Key(u.albums[i])) by {
        if Valid(u) {
          RemoveKeepsValid(u, i);
        }
      }
      (removed, u.(albums := albums))
  }

  /**
   * deleteAlbum as written: getAlbum finds the album by the toLowerCase text
   * of its name, but List.remove then drops the first album that Album.equals
   * matches, which can be an earlier one. Either way one album goes, so the
   * user stays valid.
   */
  function DeleteAlbumAsWritten(u: User, albumName: Option<string>): (r: (bool, User))
    ensures r.0 <==> FindAlbum(u, albumName).Some?
    ensures !r.0 ==> r.1 == u
    ensures r.0 ==> var k := Albums.EqualityKey(u.albums[FindAlbum(u, albumName).value]);
                    exists i :: 0 <= i < |u.albums| && Albums.EqualityKey(u.albums[i]) == k
                                && (forall j :: 0 <= j < i ==> Albums.EqualityKey(u.albums[j]) != k)
                                && r.1.albums == RemoveAt(u.albums, i)
    ensures r.1.username == u.username
    ensures Valid(u) ==> Valid(r.1)
  {
    match FindAlbum(u, albumName)
    case None => (false, u)
    case Some(i) =>
      var k := Albums.EqualityKey(u.albums[i]);
      var (removed, albums) := RemoveFirst(u.albums, Albums.EqualityKey, k);
      assert removed;
      RemoveEqualKeepsValid(u, k);
      (removed, u.(albums := albums))
  }

  /** Removing the first album Album.equals matches keeps the user valid. */
  lemma RemoveEqualKeepsValid(u: User, k: string)
    requires HasKey(u.albums, Albums.EqualityKey, k)
    ensures Valid(u) ==> Valid(u.(albums := RemoveFirst(u.albums, Albums.EqualityKey, k).1))
  {
    RemoveFirstRemovesIndexOf(u.albums, Albums.EqualityKey, k);
    if Valid(u) {
      RemoveKeepsValid(u, IndexOf(u.albums, Albums.EqualityKey, k).value);
    }
  }

  /**
   * When createAlbum accepts a name whose equals key is that of an existing
   * album, deleteAlbum of the same name as written removes the first such
   * existing album and keeps the new one, while DeleteAlbum removes the new one.
   */
  lemma DeleteAsWrittenAfterCreate(u: User, albumName: Option<string>, j: nat)
    requires CreateAlbum(u, albumName).0.Some?
    requires j < |u.albums|
    requires Albums.EqualityKey(u.albums[j]) == Albums.EqualityKey(CreateAlbum(u, albumName).0.value)
    requires forall k :: 0 <= k < j ==> Albums.EqualityKey(u.albums[k]) != Albums.EqualityKey(u.albums[j])
    ensures DeleteAlbumAsWritten(CreateAlbum(u, albumName).1, albumName)
            == (true, u.(albums := RemoveAt(u.albums, j) + [CreateAlbum(u, albumName).0.value]))
    ensures DeleteAlbum(CreateAlbum(u, albumName).1, albumName) == (true, u)
  {
    var album, created := CreateAlbum(u, albumName).0.value, CreateAlbum(u, albumName).1;
    AppendedAlbumIsFound(u, albumName, album);
    assert created.albums[|u.albums|] == album;
    RemoveFirstBeforeAppended(u.albums, Albums.EqualityKey, album, j);
    CreateThenDeleteAlbum(u, albumName);
  }

  /** A user "u" whose one album is `name`, holding no photos. */
  function OneAlbumUser(name: string): User {
    User("u", [Albums.Album(name, [])])
  }

  /**
   * Beside an album named with the plain spelling of a long-s word, createAlbum
   * accepts the long-s word, because the lookup compares toLowerCase texts
   * and U+017F lower-cases to itself.
   */
  lemma LongSAlbumIsCreated(name: string)
    requires IsLongSWord(name)
    ensures CreateAlbum(OneAlbumUser(PlainSpelling(name)), Some(name)).0 == Some(Albums.Album(name, []))
  {
    var u := OneAlbumUser(PlainSpelling(name));
    LongSIsKeyName(name);
    PlainSpellingFolds(name);
    assert Albums.Key(u.albums[0]) == PlainSpelling(name);
    assert name[0] != PlainSpelling(name)[0];
  }

  /**
   * With an album named with the plain spelling of a long-s word ("s" beside
   * "ſ", say), createAlbum of the long-s word succeeds. Deleting that name as
   * written then removes the plain album, the one the lookup did not find,
   * since the two names are equal ignoring case. DeleteAlbum removes the album
   * found and gives back the user as it was.
   */
  lemma LongSDeleteRemovesPlainAlbum(name: string)
    requires IsLongSWord(name)
    ensures var u := OneAlbumUser(PlainSpelling(name));
            var created := CreateAlbum(u, Some(name)).1;
            && DeleteAlbumAsWritten(created, Some(name)) == (true, OneAlbumUser(name))
            && DeleteAlbum(created, Some(name)) == (true, u)
  {
    var u, album := OneAlbumUser(PlainSpelling(name)), Albums.Album(name, []);
    LongSAlbumIsCreated(name);
    LongSFoldsToPlainSpelling(name);
    PlainSpellingFolds(name);
    assert Albums.EqualityKey(u.albums[0]) == Albums.EqualityKey(album);
    DeleteAsWrittenAfterCreate(u, Some(name), 0);
    assert RemoveAt(u.albums, 0) + [album] == [album];
  }

  /** deleteAlbum undoes a successful createAlbum under the same name. */
  lemma CreateThenDeleteAlbum(u: User, albumName: Option<string>)
    requires CreateAlbum(u, albumName).0.Some?
    ensures DeleteAlbum(CreateAlbum(u, albumName).1, albumName) == (true, u)
  {
    var album := CreateAlbum(u, albumName).0.value;
    AppendedAlbumIsFound(u, albumName, album);
    RemoveFirstOfAppended(u.albums, Albums.Key, album);
  }

  /** Removing one album keeps the user valid, and no album then has the removed one's name. */
  lemma RemoveKeepsValid(u: User, i: nat)
    requires Valid(u) && i < |u.albums|
    ensures Valid(u.(albums := RemoveAt(u.albums, i)))
    ensures !HasKey(RemoveAt(u.albums, i), Albums.Key, Albums.Key(u.albums[i]))
  {
    var albums := RemoveAt(u.albums, i);
    DistinctRemoveAt(u.albums, Albums.Key, i);
    RemoveAtLeavesNoKey(u.albums, Albums.Key, i);
    forall j | 0 <= j < |albums|
      ensures Albums.Valid(albums[j])
    {
      assert albums[j] == u.albums[if j < i then j else j + 1];
    }
  }

  /**
   * renameAlbum: fails when the new name is null or blank, when the old name
   * finds no album, or when the new name finds a different album; otherwise
   * the album found gets the trimmed new name and keeps its photos.
   */
  function RenameAlbum(u: User, oldName: Option<string>, newName: Option<string>): (r: (bool, User))
    ensures r.0 <==> && newName.Some? && !IsBlank(newName.value)
                     && FindAlbum(u, oldName).Some?
                     && (FindAlbum(u, newName).None? || FindAlbum(u, newName) == FindAlbum(u, oldName))
    ensures !r.0 ==> r.1 == u
    ensures r.0 ==> var i := FindAlbum(u, oldName).value;
                    && r.1.username == u.username
                    && |r.1.albums| == |u.albums|
                    && r.1.albums[i] == Albums.Album(Trim(newName.value), u.albums[i].photos)
                    && forall j :: 0 <= j < |u.albums| && j != i ==> r.1.albums[j] == u.albums[j]
    ensures Valid(u) ==> Valid(r.1)
  {
    if newName.None? || IsBlank(newName.value) then
      (false, u)
    else match FindAlbum(u, oldName)
      case None => (false, u)
      case Some(i) =>
        var conflict := FindAlbum(u, newName);
        if conflict.Some? && conflict.value != i then
          (false, u)
        else
          var renamed := Albums.SetName(u.albums[i], newName).value;
          assert renamed == Albums.Album(Trim(newName.value), u.albums[i].photos);
          assert Valid(u) ==> Valid(UpdateAlbum(u, i, renamed)) by {
            if Valid(u) {
              RenameKeepsValid(u, oldName, newName, renamed);
            }
          }
          (true, UpdateAlbum(u, i, renamed))
  }

  /**
   * An edit made in place on the user's album at position `i`: the album is
   * replaced by its edited state and nothing else changes. An edit that keeps
   * the album valid and its lower-cased name as it was keeps the user valid.
   */
  function UpdateAlbum(u: User, i: nat, album: Albums.Album): (r: User)
    requires i < |u.albums|
    ensures r.username == u.username && |r.albums| == |u.albums| && r.albums[i] == album
    ensures forall j :: 0 <= j < |u.albums| && j != i ==> r.albums[j] == u.albums[j]
    ensures Valid(u) && Albums.Valid(album) && Albums.Key(album) == Albums.Key(u.albums[i]) ==> Valid(r)
  {
    var r := u.(albums := u.albums[i := album]);
    assert Valid(u) && Albums.Valid(album) && Albums.Key(album) == Albums.Key(u.albums[i]) ==> Valid(r) by {
      if Valid(u) && Albums.Valid(album) && Albums.Key(album) == Albums.Key(u.albums[i]) {
        DistinctUpdateSameKey(u.albums, Albums.Key, i, album);
      }
    }
    r
  }

  /**
   * addPhoto of a valid photo and removePhoto, called on an album the user
   * holds, keep the user valid.
   */
  lemma AlbumPhotoEditsKeepValid(u: User, j: nat, photo: Option<Photos.Photo>)
    requires Valid(u) && j < |u.albums|
    requires photo.Some? ==> Photos.Valid(photo.value)
    ensures Valid(UpdateAlbum(u, j, Albums.AddPhoto(u.albums[j], photo).1))
    ensures Valid(UpdateAlbum(u, j, Albums.RemovePhoto(u.albums[j], photo).1))
  {
  }

  /** An album appended under a name no album has is what that name finds. */
  lemma AppendedAlbumIsFound(u: User, albumName: Option<string>, album: Albums.Album)
    requires albumName.Some? && FindAlbum(u, albumName).None?
    requires Albums.Key(album) == QueryKey(albumName.value)
    ensures FindAlbum(u.(albums := u.albums + [album]), albumName) == Some(|u.albums|)
  {
    var albums := u.albums + [album];
    assert albums[|u.albums|] == album;
    assert forall j :: 0 <= j < |u.albums| ==> albums[j] == u.albums[j];
  }

  /** Appending a valid album under a new name keeps the user valid. */
  lemma AppendKeepsValid(u: User, album: Albums.Album)
    requires Valid(u) && Albums.Valid(album)
    requires !HasKey(u.albums, Albums.Key, Albums.Key(album))
    ensures Valid(u.(albums := u.albums + [album]))
  {
    DistinctAppend(u.albums, Albums.Key, album);
    var albums := u.albums + [album];
    forall j | 0 <= j < |albums|
      ensures Albums.Valid(albums[j])
    {
      if j < |u.albums| {
        assert albums[j] == u.albums[j];
      }
    }
  }

  /**
   * The album the old name finds, renamed to a name no other album has, keeps
   * the user valid.
   */
  lemma RenameKeepsValid(u: User, oldName: Option<string>, newName: Option<string>, renamed: Albums.Album)
    requires Valid(u) && Albums.Valid(renamed)
    requires FindAlbum(u, oldName).Some? && newName.Some?
    requires Albums.Key(renamed) == QueryKey(newName.value)
    requires FindAlbum(u, newName).None? || FindAlbum(u, newName) == FindAlbum(u, oldName)
    ensures Valid(UpdateAlbum(u, FindAlbum(u, oldName).value, renamed))
  {
    var i := FindAlbum(u, oldName).value;
    forall j | 0 <= j < |u.albums| && j != i
      ensures Albums.Key(u.albums[j]) != Albums.Key(renamed)
    {
      if Albums.Key(u.albums[j]) == Albums.Key(renamed) {
        DistinctKeyUnique(u.albums, Albums.Key, i, j);
      }
    }
    DistinctUpdate(u.albums, Albums.Key, i, renamed);
  }

  /**
   * After a successful rename, the new name finds the renamed album where the
   * old name found it, whether or not the album names were distinct before.
   */
  lemma RenamedAlbumIsFound(u: User, oldName: Option<string>, newName: Option<string>)
    requires RenameAlbum(u, oldName, newName).0
    ensures FindAlbum(RenameAlbum(u, oldName, newName).1, newName) == FindAlbum(u, oldName)
  {
    var i := FindAlbum(u, oldName).value;
    var albums := RenameAlbum(u, oldName, newName).1.albums;
    var k := QueryKey(newName.value);
    assert Albums.Key(albums[i]) == k;
    forall j | 0 <= j < i
      ensures Albums.Key(albums[j]) != k
    {
      assert albums[j] == u.albums[j];
    }
  }

  /**
   * Renaming an album to a case variant of its own name succeeds, a variant
   * being a name with the same toLowerCase text: then the conflict the new
   * name finds, if any, is the album itself.
   */
  lemma RenameToOwnCaseVariant(u: User, oldName: Option<string>, newName: Option<string>)
    requires FindAlbum(u, oldName).Some?
    requires newName.Some? && !IsBlank(newName.value)
    requires Fold(Trim(newName.value)) == Fold(u.albums[FindAlbum(u, oldName).value].name)
    ensures RenameAlbum(u, oldName, newName).0
  {
    var i := FindAlbum(u, oldName).value;
    assert QueryKey(newName.value) == QueryKey(oldName.value) == Albums.Key(u.albums[i]);
  }

  /** What User.hashCode hashes and the lookups by name compare: the lower-cased username. */
  function Key(u: User): string {
    Fold(u.username)
  }

  /** What User.equals compares: the username upper-cased and then lower-cased. */
  function EqualityKey(u: User): string {
    IgnoreCaseKey(u.username)
  }

  /**
   * User.equals: the usernames compared ignoring case. Two users are equal
   * exactly when their ignore-case keys are, and users with the same
   * lower-cased username are equal; the converse fails on U+017F.
   */
  predicate Equal(a: User, b: User)
    ensures Equal(a, b) <==> EqualityKey(a) == EqualityKey(b)
    ensures Key(a) == Key(b) ==> Equal(a, b)
  {
    EqualsIgnoreCaseIsKeyEquality(a.username, b.username);
    FoldEqualityGivesEqualsIgnoreCase(a.username, b.username);
    EqualsIgnoreCase(a.username, b.username)
  }

  /** User.equals is an equivalence relation and ignores the albums. */
  lemma EqualIsEquivalence(a: User, b: User, c: User)
    ensures Equal(a, a)
    ensures Equal(a, b) ==> Equal(b, a)
    ensures Equal(a, b) && Equal(b, c) ==> Equal(a, c)
    ensures Equal(a, b) <==> Equal(a.(albums := c.albums), b)
  {
  }
}

=== FILE: wrappers.dfy ===
/** Optional values and the kinds of failure the photo model raises. */
module Wrappers {

  /** A value that may be absent; stands for a Java reference that may be null. */
  datatype Option<+T> = None | Some(value: T)

  /** The exceptions the model's constructors and file reads can raise. */
  datatype Error =
    | InvalidArgument(message: string)  // a required string was null or blank
    | IOError(message: string)          // the filesystem refused a read
    | Unchecked(message: string)        // a runtime exception no caller catches

  /** Either a constructed value or the exception that prevented it. */
  datatype Result<+T> = Ok(value: T) | Err(error: Error)
}
